=== FILE: README.md ===
# Severn Valley Railway train tracker: position engine

This project models the schedule-driven core of the train tracker's browser
script `src/Web/system.js`. The script receives a day's timetable: services,
each with a train number, a direction and an ordered list of stops whose
times are "HH:MM" strings. At any minute it decides:

- where every service is: absent, standing at a station (possibly waiting for
  its departure), or between two stations with a fractional progress;
- which service of each train number is shown;
- where its marker goes on the vertical station diagram;
- what status line is written for it.

The minute itself comes from the wall clock or from a manual clock stepped
five minutes at a time.

Modules, in dependency order:

- `Wrappers` (wrappers.dfy) holds `Option`.
- `TimeText` (time_text.dfy) covers `parseTime` and `formatTime`, plus the
  integer-to-text conversion that template strings perform, JavaScript's
  truncating `%`, and `padStart`.
- `Timetable` (timetable.dfy) covers stops, services, `getStopTime` and
  `extractStations`.
- `Inference` (inference.dfy) covers `findTrainPosition` and
  `getNextService`.
- `Selector` (selector.dfy) covers the per-train-number selection loop of
  `renderTracker`.
- `Status` (status.dfy) covers `generateStatusText`, together with
  JavaScript's `indexOf`, `slice`, `find` and `join`.
- `Render` (render.dfy) covers the station and track-section placement of
  `renderTracker`.
- `ManualClock` (manual_clock.dfy) covers `getCurrentTime`, the up/down
  buttons and the live button.
- `Scenarios` (scenarios.dfy) holds worked examples on a three-station line
  A, B, C.

JavaScript behaviour is written out explicitly:

- An arrival or departure field that is missing or the empty string is
  falsy in every test the script makes, so both are `None`. The pass-time
  field is folded the same way; see "## Left out" for the one case where
  that differs.
- `0/0` is NaN: `Ratio = Num(real) | NaN`.
- `indexOf` returns -1.
- `slice` counts negative bounds from the end and clamps.
- `%` takes the sign of the dividend.
- The object keyed by train number keeps insertion order. Reassigning an
  existing key keeps its place.

Behaviours of `system.js` worth knowing:

- **Next working.** `getNextService` returns the *first* matching service in
  timetable order, which is not always the earliest (system.js:344-354).
  `Inference.NextServiceEarliestWhenOrdered` shows that the two agree when
  each train number's services are listed in start order.
  `Scenarios.NextServiceNotEarliest` exhibits a timetable where they differ.
- **Segment that takes no time.** The progress is computed as
  `(t - depart) / (arrive - depart)` with no guard (system.js:309). So a
  segment whose departure equals its arrival yields NaN.
- **Empty timetable.** `extractStations` reads `trains[0].stops`, which
  throws on an empty timetable. It is a precondition here.
- **Stop with no time.** A stop with no time field at all makes
  `parseTime(undefined)` throw. Such stops are excluded by `ValidStop`.

## Model

| member | source | states |
|---|---|---|
| TimeText.NatToString | src/Web/system.js:373 | `${n}` of a non-negative integer is a non-empty digit string whose decimal value is `n`, with no leading zero |
| TimeText.IntToString | src/Web/system.js:373 | `${n}` of any integer starts with '-' exactly when `n` is negative; the digits after the sign spell the magnitude of `n` in decimal, with no leading zero |
| TimeText.PadStart2 | src/Web/system.js:209 | `padStart(2, '0')`: length is max(2, length), the original string is the suffix, and only '0's are added before it |
| TimeText.JsRem | src/Web/system.js:208 | `minutes % 60` differs from `minutes` by a multiple of 60, lies strictly between -60 and 60, and has the sign of the dividend (never positive for negative minutes), which fixes JavaScript's truncated remainder |
| TimeText.FormatTime | src/Web/system.js:206-210 | the formatted time has at least five characters and starts with a digit or a minus sign |
| TimeText.FormatParseRoundTrip | src/Web/system.js:201-210 | every non-negative minute count survives `formatTime` then `parseTime`; below 1440 the text is a canonical five-character "HH:MM" |
| TimeText.ParseFormatRoundTrip | src/Web/system.js:201-210 | every canonical "HH:MM" string is reproduced by `parseTime` then `formatTime` |
| TimeText.ParseOfSplit | src/Web/system.js:201-204 | `parseTime` of two non-empty digit runs joined by a colon is the hours value times 60 plus the minutes value |
| TimeText.ParseCanonical | src/Web/system.js:201-204 | `parseTime` of a canonical "HH:MM" reads its two digit pairs as hours and minutes |
| TimeText.IndexOfCharFirst | src/Web/system.js:202 | `split(':')` cuts at the first colon: the index found holds a colon and no earlier character is one, or there is no colon at all |
| Timetable.StopTime | src/Web/system.js:247-249 | `getStopTime` reads the departure if present, else the arrival, else the pass time |
| Timetable.DepartTimeIsStopTime | src/Web/system.js:304 | the segment scan's departure reading always equals `getStopTime` of the stop |
| Timetable.ArriveTimeDiffersOnlyAtDwell | src/Web/system.js:305 | the segment scan's arrival reading is the arrival field when present, and differs from `getStopTime` only at a stop with both an arrival and a departure |
| Timetable.RouteOrder | src/Web/system.js:181-188 | the station names are the stops in order for a southbound service and in reverse order for a northbound one |
| Timetable.FirstLongestUnique | src/Web/system.js:171-179 | there is at most one "first service with the most stops" |
| Timetable.ExtractStations | src/Web/system.js:168-189 | the axis is the route order of the first service with the most stops: no service has more, and every earlier one has strictly fewer |
| Inference.Progress | src/Web/system.js:307-309 | inside the segment window, progress is NaN exactly when the segment takes no time; otherwise it is the time since departure divided by the segment's length: it lies in [0, 1], and is 0 exactly at departure and 1 exactly at arrival |
| Inference.NextServiceIndex | src/Web/system.js:342-355 | the search stops at the first service of the same number leaving the station strictly later; none before it qualifies; it reports none only when no service qualifies |
| Inference.NextService | src/Web/system.js:340-356 | `getNextService` answers null exactly when no service of the train number leaves the station strictly after `t`; otherwise it answers a timetable service that does, with that service's start time |
| Inference.NextServiceFirst | src/Web/system.js:344-353 | the working `getNextService` answers is the first qualifying service in timetable order: no service listed before it qualifies |
| Inference.NextServiceEarliestWhenOrdered | src/Web/system.js:340-356 | when each train number's services are listed in start order, the first match is also the earliest |
| Inference.BeforeStart | src/Web/system.js:254-269 | before the start, the service stands waiting at its first station exactly inside the 15-minute pre-departure window at a terminus of the axis, and is absent otherwise |
| Inference.AfterEnd | src/Web/system.js:271-297 | after the end, the service stands at its last station exactly when a later working leaves from there or at most 15 minutes have passed, and is absent otherwise |
| Inference.Scan | src/Web/system.js:300-337 | the segment loop never yields null and never a waiting-for-departure position; what it yields is fixed by the three lemmas below |
| Inference.ScanFirstHit | src/Web/system.js:300-331 | the segment loop reports the first stop pair whose segment window (ends included) or dwell (arrival included, departure excluded) covers `t`; the segment wins over the dwell of the same pair |
| Inference.ScanNoHit | src/Web/system.js:333-337 | when no pair covers `t`, the loop falls back to the last station |
| Inference.ScanBetween | src/Web/system.js:307-318 | a `between` result comes from a pair whose segment window covers `t` |
| Inference.FindTrainPosition | src/Web/system.js:251-338 | `findTrainPosition` combines the three phases (before start, after end, running): a running service is never absent; it is waiting for departure exactly in the pre-departure window; and `between` happens only while running |
| Inference.AbsentExactly | src/Web/system.js:254-297 | a service is absent exactly before its start outside the pre-departure window, or after its end once neither a next working nor the clearance window holds it; never while running |
| Inference.BetweenProgress | src/Web/system.js:299-318 | every `between` position lies inside its segment window, and its progress is NaN only on a segment that takes no time; otherwise the progress is the time since departure divided by the segment's length, a fraction in [0, 1] |
| Selector.KeyIndex | src/Web/system.js:444 | the lookup `activeTrains[key]` finds the first entry with that train number, or reports that none exists |
| Selector.SelectUpTo | src/Web/system.js:438-494 | every prefix of the selection loop holds entries for valid services |
| Selector.StepKeepsPlaces | src/Web/system.js:440-492 | one iteration ignores a null position, keeps every entry in its place, replaces at most the entry with the candidate's number, and appends a new number at the end |
| Selector.HeldAfterStep | src/Web/system.js:440-492 | one iteration leaves every other train number's entry unchanged; the candidate's own number ends up holding the candidate when it is new or supersedes, and the old entry otherwise |
| Selector.StepInvariant | src/Web/system.js:440-492 | one iteration preserves the selection invariant: soundness, completeness, and the priority rules (running over not running, moving over standing when both run, finished over not started, the latest-finishing among finished, first seen when the held service has not started); ties in the other tiers are settled by `Selector.StepRanked` |
| Selector.SelectUpToInvariant | src/Web/system.js:436-494 | after any number of iterations the selection invariant holds |
| Selector.NotStartedNeverSupersedes | src/Web/system.js:457-489 | a service that has not started never replaces the held entry |
| Selector.Tier | src/Web/system.js:453-489 | the tie-break's tiers: running between stations (4), running at a station (3), finished (2), still to start (1) |
| Selector.SupersedesIsOutranks | src/Web/system.js:453-489 | the tie-break replaces a held entry exactly when the candidate outranks it: a higher tier, or both finished and the candidate ending later |
| Selector.OutranksThrough | src/Web/system.js:453-489 | ranking is a total preorder, so whatever outranks the held entry outranks everything the held entry was not outranked by |
| Selector.StepRanked | src/Web/system.js:440-492 | one iteration keeps the ranking facts: the held entry of each number ranks at least as high as every shown candidate of that number, and of equal rank it is the one seen first |
| Selector.SelectUpToRanked | src/Web/system.js:436-494 | the ranking facts hold after any number of iterations |
| Selector.HeldIsFirstBest | src/Web/system.js:436-494 | with the ranking facts, the held entry of a number is its first shown candidate of the highest rank |
| Selector.ActiveTrainsFirstBest | src/Web/system.js:436-494 | over a whole timetable, each train number shows its first service (in timetable order) of the highest rank; in every tie the entry seen first is kept |
| Selector.OutranksIsScore | src/Web/system.js:453-489 | the ranking is a comparison of numeric scores, so it is a strict weak order |
| Selector.FirstBestExists | src/Web/system.js:436-494 | every number with a shown candidate has a first shown candidate of the highest rank |
| Selector.ActiveTrainsShowsFirstBest | src/Web/system.js:436-494 | every train number with a shown service is drawn with its first shown service of the highest rank |
| Selector.ActiveTrainsChoice | src/Web/system.js:436-494 | the final selection has one entry per train number; each entry is a timetable service with its own non-null position; every train number with a shown service is represented; the priority rules hold against every other shown service of that number |
| Status.FindStop | src/Web/system.js:387 | `findIndex` gives the first stop at the station, or none if no stop is there |
| Status.IndexOf | src/Web/system.js:405-406 | `indexOf` gives the first position of the name, or -1 exactly when it is absent |
| Status.JsSlice | src/Web/system.js:407-409 | `slice` gives the plain subsequence for in-range ordered bounds and the empty sequence for reversed ones; a negative bound counts back from the end and one beyond either end is clamped; when the resolved end is at or before the resolved start (as in `slice(len, -1)`) the result is empty; it never grows and holds only elements of the source |
| Status.Intermediate | src/Web/system.js:405-409 | the stations the status line looks at between a moving train's ends are axis stations, never more than the axis holds |
| Status.IntermediateOrientation | src/Web/system.js:405-409 | with both ends on the axis, the slice is empty for travel in the direction the diagram draws; it is the stations strictly between the ends only for travel the other way |
| Status.PassingStations | src/Web/system.js:411-420 | exactly the listed stations whose first stop record is a non-stopping pass strictly in the future get a clause, with the minutes until passing |
| Status.PassingStationsInOrder | src/Web/system.js:411-420 | the clauses come in the order of the listed stations: each is taken from a strictly later position than the one before, and every passed position contributes one |
| Status.StatusText | src/Web/system.js:358-426 | no status line is written exactly for a null position or an intermediate stop without a departure |
| Status.MinuteSingularOnlyForOne | src/Web/system.js:373 | "minute" is singular exactly for a count of one |
| Status.ArrivalText | src/Web/system.js:398-399 | a moving train reads "arriving now" exactly when it arrives this minute |
| Status.TerminatedExactly | src/Web/system.js:376-383 | "Terminated at <station>" is written for a standing train exactly when it is at a terminus with no later working from there |
| Render.Percentage | src/Web/system.js:537-539 | the section placement is NaN exactly when the progress is NaN, and it lies in [0, 100] for a progress in [0, 1] |
| Render.MatchesSection | src/Web/system.js:528-534 | a moving train matches a section only when it runs between that section's two stations, and (for distinct stations) it departed from the upper one exactly when southbound |
| Render.StationMarkers | src/Web/system.js:506-512 | every train standing at the station gets a marker halfway down the station box, and every marker there sits in that box |
| Render.StationMarkerSource | src/Web/system.js:506-512 | every station marker stands for an active train standing at that station |
| Render.SectionMarkers | src/Web/system.js:525-544 | every train moving on the section in its direction's orientation gets a marker at its percentage, and every marker there sits on that section |
| Render.SectionMarkerSource | src/Web/system.js:525-544 | every section marker stands for an active train moving on that section, placed at its own progress |
| Render.LayoutFrom | src/Web/system.js:497-548 | markers are placed only on stations and sections that exist on the axis |
| Render.LayoutFromSound | src/Web/system.js:497-548 | every marker of the diagram was produced for its own station or section |
| Render.LayoutFromStations | src/Web/system.js:497-514 | every active train standing at a station of the axis is drawn there |
| Render.LayoutFromSections | src/Web/system.js:516-547 | every active train moving between adjacent axis stations in its direction's orientation (southbound from the upper to the lower station, northbound from the lower to the upper) is drawn on that section at its percentage |
| Render.UnmatchedNotDrawn | src/Web/system.js:497-548 | a moving train that matches no section in its direction's orientation, such as a southbound train running from a lower station to the one above, gets no marker anywhere on the diagram |
| Render.LayoutInRange | src/Web/system.js:537-540 | every numeric placement lies within its box, [0, 100] |
| Render.ActiveProgressInRange | src/Web/system.js:436-494 | every selected moving train has a progress in [0, 1] or NaN |
| Render.PlacementMeasuresTravel | src/Web/system.js:530-539 | a moving train's distance down its section, measured from the end it departed from, is its progress: both directions are measured consistently |
| Render.DrawnSectionHasNoPassingClause | src/Web/system.js:405-409 | on an axis without repeated names, a train drawn on a section never receives a passing clause |
| ManualClock.CurrentTime | src/Web/system.js:238-245 | the current time is the wall clock in live mode and the manual time otherwise, and is a time of day whenever both are |
| ManualClock.StepUp | src/Web/system.js:614-615 | stepping up adds five minutes or resets to midnight, and stays within the day |
| ManualClock.StepDown | src/Web/system.js:628-629 | stepping down subtracts five minutes or resets to 23:55, and stays within the day |
| ManualClock.TimeUp | src/Web/system.js:608-620 | the up button leaves live mode, and the new manual time is one step up from the time being shown (the wall clock when it was live) |
| ManualClock.TimeDown | src/Web/system.js:622-634 | the down button leaves live mode, and the new manual time is one step down from the time being shown (the wall clock when it was live) |
| ManualClock.GoLive | src/Web/system.js:636-642 | the live button reads the wall clock again and keeps the manual time |
| ManualClock.DownUndoesUp | src/Web/system.js:614-629 | a step down undoes a step up exactly up to 23:55 |
| ManualClock.UpUndoesDown | src/Web/system.js:614-629 | a step up undoes a step down exactly from 00:05 on and at midnight itself |
| ManualClock.StepsAgreeWithModularArithmetic | src/Web/system.js:614-629 | the steps agree with arithmetic modulo a day except in the four minutes the resets discard |
| Scenarios.MidSegment | src/Web/system.js:299-318 | a shuttle leaving A at 10:00 and due at B at 10:20 is halfway between them at 10:10 |
| Scenarios.Dwell | src/Web/system.js:320-330 | it stands at B during its 10:20-10:25 dwell |
| Scenarios.PreDeparture | src/Web/system.js:258-268 | it waits at A ten minutes before departure and is absent sixteen minutes before |
| Scenarios.Clearance | src/Web/system.js:288-295 | with no later working it is shown at C ten minutes after arrival and cleared after sixteen |
| Scenarios.NextServiceNotEarliest | src/Web/system.js:344-354 | when two later workings leave C, the one listed first is returned, although the other leaves earlier |
| Scenarios.RunningServiceSelected | src/Web/system.js:438-440 | a working not yet due at 10:10 has a null position and is skipped, so the running shuttle is the only entry |
| Scenarios.RunningOverWaiting | src/Web/system.js:457-460 | a working waiting at C, listed first, is replaced by the shuttle running from A to B |
| Scenarios.WrongWayNotDrawn | src/Web/system.js:525-544 | a southbound train reported as moving from B back to A on the axis A, B, C leaves the diagram empty |
| Scenarios.FinishedOverWaiting | src/Web/system.js:470-479 | a finished working held at C replaces the working waiting there to depart |

## Left out

- The DOM, `fetch`, timers, the health check and the colour and icon choice are left out. `Date` is reduced to a wall-clock parameter. The HTML of `renderStatus` and the train elements is reduced to markers and status strings.
- The files beyond `src/Web/system.js`, such as the ASP.NET API that serves the timetable, are not part of this model.
- Time strings outside the modelled form, one colon between two non-empty digit runs, are left out, whatever `parseTime` makes of them. `Number()` accepts more than digits: "08:" reads as 480, " 8:30" as 510 and "1e1:00" as 600.
- Non-integer times are left out.
- Floating point is left out. Progress and the section percentage are JavaScript doubles; the model computes them as exact rationals (`real`), so `Inference.Progress`, `Render.Percentage` and `Render.PlacementMeasuresTravel` hold exactly where the script's values may differ by rounding.
- A stop whose arrival and departure are missing or empty and whose pass time is the empty string is left out. The script does not throw there: `parseTime("")` yields NaN, and every comparison with it is false. The model folds the empty pass time into `None`, so `ValidStop` excludes the stop.
- Any direction other than "northbound" is modelled as `Southbound`, since it behaves that way everywhere.
- The script crashes rather than returning on five inputs. These are excluded by preconditions rather than modelled as error paths:
  - an empty timetable;
  - a service with no stops, where `getStopTime(stops[0])` reads a field of `undefined` (excluded by `ValidService`);
  - a stop without any time field. The script only crashes when it reads such a stop; `ValidTimetable` excludes every such stop of every service in advance, so this precondition is stricter than the crash condition;
  - a standing position at a station missing from the service's stops;
  - an intermediate stop with a departure that is the service's last stop.
- JavaScript orders integer-like object keys numerically before string keys. Train numbers are assumed not to be integer-like, so the selection keeps plain insertion order.
- `Selector.KeyIndex`: train numbers that name an `Object.prototype` property ("constructor", "toString", "__proto__", ...) are left out. In the script `activeTrains[key]` is already truthy for such a key on its first service, so reading `.train` of the inherited value makes the loop throw; the model appends a new entry instead.
- `Inference.Scan`: states only that the result is never absent. Its meaning is given by `Inference.ScanFirstHit`, `Inference.ScanNoHit` and `Inference.ScanBetween`.
- `Inference.FindTrainPosition`: its running case is stated through `FirstHit` and `Hit`. Whether the timetable's times are increasing along a service is not assumed, so no order-based statement is made.
- `Status.StatusText`: the contract fixes when a line is written; the wording is stated only by `Status.TerminatedExactly`, `Status.ArrivalText`, `Status.MinuteSingularOnlyForOne` and `Status.PassingStations`.
- `Status.TerminatedExactly`: stated only for standing positions. A moving train's line always starts with "Traveling from".
- `TimeText.FormatTime`: for negative minute counts only the shape is stated. The script never formats one from a valid timetable and clock.
- `Scenarios`: the clock strings of the example services are parameters constrained to read as the printed times. `Scenarios.PrintedReadings` checks that the printed strings do.

=== FILE: inference.dfy ===
/** Schedule-driven position inference: where a service is at a given minute
    (`findTrainPosition`) and which later working of the same unit leaves the
    station it finished at (`getNextService`). The station axis, the whole
    timetable and the instant are parameters instead of script globals. */
module Inference {

  import opened Wrappers
  import opened TimeText
  import opened Timetable

  /** A JavaScript division result: a number, or NaN for 0/0. */
  datatype Ratio = Num(value: real) | NaN

  /** A `findTrainPosition` result; `Absent` is its `null`. */
  datatype Position =
    | Absent
    | AtStation(station: string, waitingForDeparture: bool)
    | Between(fromStation: string, toStation: string, progress: Ratio, departTime: int, arriveTime: int)

  /** The `{service, departTime}` record `getNextService` returns. */
  datatype NextWorking = NextWorking(service: Service, departTime: int)

  /** Minutes a service is shown at its origin terminus before departure. */
  const PreDepartureMinutes := 15

  /** Minutes a finished service without a next working stays on the diagram. */
  const ClearanceMinutes := 15

  /** A station at either end of the diagram's axis. An empty axis has no
      termini: `stations[0]` is `undefined` there and equals no name. */
  predicate IsTerminus(stations: seq<string>, station: string) {
    |stations| > 0 && (station == stations[0] || station == stations[|stations| - 1])
  }

  /** `x` is the share `part` of `whole`: `x * whole == part`. */
  predicate FractionOf(x: real, part: int, whole: int) {
    x * whole as real == part as real
  }

  /** `(t - depart) / (arrive - depart)` within the segment window: a fraction
      of the segment covered, or NaN when the segment takes no time. */
  function Progress(t: int, depart: int, arrive: int): (p: Ratio)
    requires depart <= t <= arrive
    ensures p.NaN? <==> depart == arrive
    ensures p.Num? ==> 0.0 <= p.value <= 1.0
    ensures p.Num? ==> (p.value == 0.0 <==> t == depart)
    ensures p.Num? ==> (p.value == 1.0 <==> t == arrive)
    ensures p.Num? ==> FractionOf(p.value, t - depart, arrive - depart)
  {
    if depart == arrive then NaN
    else
      var covered, span := (t - depart) as real, (arrive - depart) as real;
      assert covered <= span;
      Num(covered / span)
  }

  /** `svc` is a later working of `trainNumber` leaving `station` after `t`. */
  predicate LeavesLater(svc: Service, trainNumber: string, station: string, t: int)
    requires ValidService(svc)
  {
    svc.trainNumber == trainNumber && StartTime(svc) > t && svc.stops[0].station == station
  }

  /** The index `getNextService` stops at, searching from `from` on. */
  function NextServiceIndex(trains: seq<Service>, trainNumber: string, station: string, t: int, from: nat): (r: Option<nat>)
    requires ValidTimetable(trains) && from <= |trains|
    ensures r.Some? ==> from <= r.value < |trains| && LeavesLater(trains[r.value], trainNumber, station, t)
    ensures r.Some? ==> forall j :: from <= j < r.value ==> !LeavesLater(trains[j], trainNumber, station, t)
    ensures r.None? ==> forall j :: from <= j < |trains| ==> !LeavesLater(trains[j], trainNumber, station, t)
    decreases |trains| - from
  {
    if from == |trains| then None
    else if LeavesLater(trains[from], trainNumber, station, t) then Some(from)
    else NextServiceIndex(trains, trainNumber, station, t, from + 1)
  }

  /** `getNextService`: the first service in timetable order with the same
      train number, starting from `station`, strictly after `t`. */
  function NextService(trains: seq<Service>, trainNumber: string, station: string, t: int): (r: Option<NextWorking>)
    requires ValidTimetable(trains)
    ensures r.None? <==> forall j :: 0 <= j < |trains| ==> !LeavesLater(trains[j], trainNumber, station, t)
    ensures r.Some? ==> r.value.service in trains
    ensures r.Some? ==> LeavesLater(r.value.service, trainNumber, station, t)
    ensures r.Some? ==> r.value.departTime == StartTime(r.value.service) && r.value.departTime > t
  {
    match NextServiceIndex(trains, trainNumber, station, t, 0)
    case None => None
    case Some(k) => Some(NextWorking(trains[k], StartTime(trains[k])))
  }

  /** The working `getNextService` answers is the first qualifying one in
      timetable order: no service listed before it qualifies. */
  lemma NextServiceFirst(trains: seq<Service>, trainNumber: string, station: string, t: int) returns (k: nat)
    requires ValidTimetable(trains)
    requires NextService(trains, trainNumber, station, t).Some?
    ensures k < |trains| && trains[k] == NextService(trains, trainNumber, station, t).value.service
    ensures LeavesLater(trains[k], trainNumber, station, t)
    ensures forall j :: 0 <= j < k ==> !LeavesLater(trains[j], trainNumber, station, t)
  {
    k := NextServiceIndex(trains, trainNumber, station, t, 0).value;
  }

  /** When every train number's workings appear in the timetable in order of
      start time, the first match is also the earliest. */
  lemma NextServiceEarliestWhenOrdered(trains: seq<Service>, trainNumber: string, station: string, t: int)
    requires ValidTimetable(trains)
    requires forall i, j :: 0 <= i < j < |trains| && trains[i].trainNumber == trains[j].trainNumber ==>
               StartTime(trains[i]) <= StartTime(trains[j])
    ensures var r := NextService(trains, trainNumber, station, t);
            r.Some? ==> forall j :: 0 <= j < |trains| && LeavesLater(trains[j], trainNumber, station, t) ==>
                          r.value.departTime <= StartTime(trains[j])
  {
    var k := NextServiceIndex(trains, trainNumber, station, t, 0);
    if k.Some? {
      forall j | 0 <= j < |trains| && LeavesLater(trains[j], trainNumber, station, t)
        ensures StartTime(trains[k.value]) <= StartTime(trains[j])
      {
        if k.value < j {
          assert trains[k.value].trainNumber == trains[j].trainNumber;
        }
      }
    }
  }

  /** The segment window of stops `i` and `i + 1`, ends included. */
  predicate SegmentHit(stops: seq<Stop>, i: nat, t: int)
    requires ValidStops(stops) && i + 1 < |stops|
  {
    DepartTime(stops[i]) <= t <= ArriveTime(stops[i + 1])
  }

  /** A scheduled dwell: both times present, arrival included, departure not. */
  predicate InDwell(s: Stop, t: int)
    requires ValidStop(s)
  {
    s.arrival.Some? && s.departure.Some? && ParseTime(s.arrival.value) <= t < ParseTime(s.departure.value)
  }

  predicate Hit(stops: seq<Stop>, i: nat, t: int)
    requires ValidStops(stops) && i + 1 < |stops|
  {
    SegmentHit(stops, i, t) || InDwell(stops[i], t)
  }

  /** What the scan reports at a hit: the segment takes precedence over the dwell. */
  function HitPosition(stops: seq<Stop>, i: nat, t: int): Position
    requires ValidStops(stops) && i + 1 < |stops| && Hit(stops, i, t)
  {
    if SegmentHit(stops, i, t) then
      Between(stops[i].station, stops[i + 1].station,
              Progress(t, DepartTime(stops[i]), ArriveTime(stops[i + 1])),
              DepartTime(stops[i]), ArriveTime(stops[i + 1]))
    else AtStation(stops[i].station, false)
  }

  /** `i` is the first hit at or after `from`. */
  predicate FirstHit(stops: seq<Stop>, i: nat, t: int, from: nat)
    requires ValidStops(stops)
  {
    && from <= i && i + 1 < |stops|
    && Hit(stops, i, t)
    && forall j :: from <= j < i ==> !Hit(stops, j, t)
  }

  /** The segment loop of `findTrainPosition`, from pair `from` onwards. */
  function Scan(stops: seq<Stop>, t: int, from: nat): (r: Position)
    requires ValidStops(stops) && from < |stops|
    ensures !r.Absent? && (r.AtStation? ==> !r.waitingForDeparture)
    decreases |stops| - from
  {
    if from == |stops| - 1 then AtStation(stops[|stops| - 1].station, false)
    else if Hit(stops, from, t) then HitPosition(stops, from, t)
    else Scan(stops, t, from + 1)
  }

  /** The scan reports the first pair whose segment or dwell covers `t`. */
  lemma {:induction false} ScanFirstHit(stops: seq<Stop>, t: int, from: nat, i: nat)
    requires ValidStops(stops) && from < |stops| && FirstHit(stops, i, t, from)
    ensures Scan(stops, t, from) == HitPosition(stops, i, t)
    decreases |stops| - from
  {
    if from < i {
      assert !Hit(stops, from, t);
      ScanFirstHit(stops, t, from + 1, i);
    }
  }

  /** With no pair covering `t`, the scan falls back to the last station. */
  lemma {:induction false} ScanNoHit(stops: seq<Stop>, t: int, from: nat)
    requires ValidStops(stops) && from < |stops|
    requires forall j :: from <= j < |stops| - 1 ==> !Hit(stops, j, t)
    ensures Scan(stops, t, from) == AtStation(stops[|stops| - 1].station, false)
    decreases |stops| - from
  {
    if from < |stops| - 1 {
      ScanNoHit(stops, t, from + 1);
    }
  }

  /** Both cases of the scan, from the first pair. */
  lemma ScanResult(stops: seq<Stop>, t: int)
    requires ValidStops(stops) && 0 < |stops|
    ensures forall i :: FirstHit(stops, i, t, 0) ==> Scan(stops, t, 0) == HitPosition(stops, i, t)
    ensures (forall j :: 0 <= j < |stops| - 1 ==> !Hit(stops, j, t)) ==>
              Scan(stops, t, 0) == AtStation(stops[|stops| - 1].station, false)
  {
    forall i | FirstHit(stops, i, t, 0)
      ensures Scan(stops, t, 0) == HitPosition(stops, i, t)
    {
      ScanFirstHit(stops, t, 0, i);
    }
    if forall j :: 0 <= j < |stops| - 1 ==> !Hit(stops, j, t) {
      ScanNoHit(stops, t, 0);
    }
  }

  /** A `between` result of the scan comes from a segment whose window
      covers `t`. */
  lemma {:induction false} ScanBetween(stops: seq<Stop>, t: int, from: nat) returns (i: nat)
    requires ValidStops(stops) && from < |stops| && Scan(stops, t, from).Between?
    ensures from <= i < |stops| - 1 && SegmentHit(stops, i, t) && Scan(stops, t, from) == HitPosition(stops, i, t)
    decreases |stops| - from
  {
    if Hit(stops, from, t) {
      i := from;
    } else {
      i := ScanBetween(stops, t, from + 1);
    }
  }

  /** The pre-departure window: a service starting at a terminus is shown
      there from fifteen minutes before its start time. */
  predicate AwaitingDeparture(stations: seq<string>, train: Service, t: int)
    requires ValidService(train)
  {
    t < StartTime(train) && IsTerminus(stations, train.stops[0].station) && t >= StartTime(train) - PreDepartureMinutes
  }

  /** The finished service stays at its last station: it has a next working
      from there, or its clearance window has not yet elapsed. */
  predicate HeldAtTerminus(trains: seq<Service>, train: Service, t: int)
    requires ValidTimetable(trains) && ValidService(train)
  {
    NextService(trains, train.trainNumber, train.stops[|train.stops| - 1].station, t).Some?
    || t <= EndTime(train) + ClearanceMinutes
  }

  /** `findTrainPosition`. */
  function FindTrainPosition(trains: seq<Service>, stations: seq<string>, train: Service, t: int): (r: Position)
    requires ValidTimetable(trains) && ValidService(train)
    // before the start: only the pre-departure window shows the train
    ensures t < StartTime(train) ==>
              (r.AtStation? <==> AwaitingDeparture(stations, train, t)) &&
              (r.AtStation? ==> r == AtStation(train.stops[0].station, true)) &&
              (!r.AtStation? ==> r.Absent?)
    // after the end: held at the last station, or cleared
    ensures StartTime(train) <= t && t > EndTime(train) ==>
              (r.AtStation? <==> HeldAtTerminus(trains, train, t)) &&
              (r.AtStation? ==> r == AtStation(train.stops[|train.stops| - 1].station, false)) &&
              (!r.AtStation? ==> r.Absent?)
    // during the run: the first segment or dwell that covers t, else the last station
    ensures StartTime(train) <= t <= EndTime(train) ==>
              !r.Absent? &&
              (forall i :: FirstHit(train.stops, i, t, 0) ==> r == HitPosition(train.stops, i, t)) &&
              ((forall j :: 0 <= j < |train.stops| - 1 ==> !Hit(train.stops, j, t)) ==>
                 r == AtStation(train.stops[|train.stops| - 1].station, false))
    ensures r.AtStation? && r.waitingForDeparture <==> AwaitingDeparture(stations, train, t)
    ensures r.Between? ==> StartTime(train) <= t <= EndTime(train) && r == Scan(train.stops, t, 0)
  {
    if t < StartTime(train) then BeforeStart(stations, train, t)
    else if t > EndTime(train) then AfterEnd(trains, train, t)
    else
      ScanResult(train.stops, t);
      Scan(train.stops, t, 0)
  }

  /** The branch of `findTrainPosition` before the service's start time. */
  function BeforeStart(stations: seq<string>, train: Service, t: int): (r: Position)
    requires ValidService(train) && t < StartTime(train)
    ensures r.AtStation? <==> AwaitingDeparture(stations, train, t)
    ensures r.AtStation? ==> r == AtStation(train.stops[0].station, true)
    ensures !r.AtStation? ==> r.Absent?
  {
    var startTime := StartTime(train);
    if IsTerminus(stations, train.stops[0].station) && t >= startTime - PreDepartureMinutes
    then AtStation(train.stops[0].station, true)
    else Absent
  }

  /** The branch of `findTrainPosition` after the service's end time. */
  function AfterEnd(trains: seq<Service>, train: Service, t: int): (r: Position)
    requires ValidTimetable(trains) && ValidService(train) && t > EndTime(train)
    ensures r.AtStation? <==> HeldAtTerminus(trains, train, t)
    ensures r.AtStation? ==> r == AtStation(train.stops[|train.stops| - 1].station, false)
    ensures !r.AtStation? ==> r.Absent?
  {
    var endTime := EndTime(train);
    var lastStation := train.stops[|train.stops| - 1].station;
    if NextService(trains, train.trainNumber, lastStation, t).Some? then AtStation(lastStation, false)
    else if t > endTime + ClearanceMinutes then Absent
    else AtStation(lastStation, false)
  }

  /** A service is never absent from the diagram while it runs; it is absent
      exactly outside the pre-departure window before it starts, or once
      cleared after it ends. */
  lemma AbsentExactly(trains: seq<Service>, stations: seq<string>, train: Service, t: int)
    requires ValidTimetable(trains) && ValidService(train)
    ensures FindTrainPosition(trains, stations, train, t).Absent? <==>
              (t < StartTime(train) && !AwaitingDeparture(stations, train, t)) ||
              (StartTime(train) <= t && t > EndTime(train) && !HeldAtTerminus(trains, train, t))
  {
  }

  /** Every `between` result lies inside its segment window; its progress is a
      fraction in [0, 1] that is 0 exactly at departure and 1 exactly at
      arrival, and NaN only on a segment that takes no time. */
  lemma BetweenProgress(trains: seq<Service>, stations: seq<string>, train: Service, t: int)
    requires ValidTimetable(trains) && ValidService(train)
    ensures var r := FindTrainPosition(trains, stations, train, t);
            r.Between? ==>
              && r.departTime <= t <= r.arriveTime
              && (r.progress.NaN? <==> r.departTime == r.arriveTime)
              && (r.progress.Num? ==> 0.0 <= r.progress.value <= 1.0)
              && (r.progress.Num? ==> (r.progress.value == 0.0 <==> t == r.departTime))
              && (r.progress.Num? ==> (r.progress.value == 1.0 <==> t == r.arriveTime))
              && (r.progress.Num? ==> FractionOf(r.progress.value, t - r.departTime, r.arriveTime - r.departTime))
  {
    var r := FindTrainPosition(trains, stations, train, t);
    if r.Between? {
      var i := ScanBetween(train.stops, t, 0);
      assert r.progress == Progress(t, r.departTime, r.arriveTime);
    }
  }
}

=== FILE: manual_clock.dfy ===
/** The clock the tracker evaluates positions against: live (wall clock) or a
    manual time stepped five minutes at a time by the up and down buttons.
    The wall-clock reading `now.getHours() * 60 + now.getMinutes()` is a
    parameter. */
module ManualClock {

  const MinutesPerDay := 24 * 60
  const StepMinutes := 5

  datatype Clock = Clock(isLiveMode: bool, manualTime: int)

  predicate IsTimeOfDay(m: int) {
    0 <= m < MinutesPerDay
  }

  /** `getCurrentTime`. */
  function CurrentTime(c: Clock, wallNow: int): (m: int)
    ensures c.isLiveMode ==> m == wallNow
    ensures !c.isLiveMode ==> m == c.manualTime
    ensures IsTimeOfDay(wallNow) && IsTimeOfDay(c.manualTime) ==> IsTimeOfDay(m)
  {
    if c.isLiveMode then wallNow else c.manualTime
  }

  /** `manualTime += 5`, with any result past the end of the day reset to midnight. */
  function StepUp(m: int): (r: int)
    ensures IsTimeOfDay(m) ==> IsTimeOfDay(r)
    ensures r == 0 || r == m + StepMinutes
  {
    var next := m + StepMinutes;
    if next >= MinutesPerDay then 0 else next
  }

  /** `manualTime -= 5`, with any result before midnight reset to 23:55. */
  function StepDown(m: int): (r: int)
    ensures IsTimeOfDay(m) ==> IsTimeOfDay(r)
    ensures r == MinutesPerDay - StepMinutes || r == m - StepMinutes
  {
    var next := m - StepMinutes;
    if next < 0 then MinutesPerDay - StepMinutes else next
  }

  /** The `timeUp` handler: leave live mode at the wall-clock time, then step. */
  function TimeUp(c: Clock, wallNow: int): (r: Clock)
    ensures !r.isLiveMode
    ensures r.manualTime == StepUp(CurrentTime(c, wallNow))
    ensures IsTimeOfDay(wallNow) && IsTimeOfDay(c.manualTime) ==> IsTimeOfDay(r.manualTime)
  {
    var base := if c.isLiveMode then wallNow else c.manualTime;
    Clock(false, StepUp(base))
  }

  /** The `timeDown` handler. */
  function TimeDown(c: Clock, wallNow: int): (r: Clock)
    ensures !r.isLiveMode
    ensures r.manualTime == StepDown(CurrentTime(c, wallNow))
    ensures IsTimeOfDay(wallNow) && IsTimeOfDay(c.manualTime) ==> IsTimeOfDay(r.manualTime)
  {
    var base := if c.isLiveMode then wallNow else c.manualTime;
    Clock(false, StepDown(base))
  }

  /** The live button: the manual time is kept but no longer read. */
  function GoLive(c: Clock): (r: Clock)
    ensures r.isLiveMode && r.manualTime == c.manualTime
    ensures forall wallNow :: CurrentTime(r, wallNow) == wallNow
  {
    Clock(true, c.manualTime)
  }

  /** A step up is undone by a step down exactly up to 23:55; from 23:56 to
      23:59 the reset lands on midnight and the step down on 23:55. */
  lemma DownUndoesUp(m: int)
    requires IsTimeOfDay(m)
    ensures StepDown(StepUp(m)) == m <==> m <= MinutesPerDay - StepMinutes
  {
  }

  /** A step down is undone by a step up from 00:05 on, and at midnight itself;
      from 00:01 to 00:04 it is not. */
  lemma UpUndoesDown(m: int)
    requires IsTimeOfDay(m)
    ensures StepUp(StepDown(m)) == m <==> m >= StepMinutes || m == 0
  {
  }

  /** The step agrees with arithmetic modulo a day exactly when no reset
      discards minutes: everywhere except the last four minutes before
      midnight (up) and the first four after it (down). */
  lemma StepsAgreeWithModularArithmetic(m: int)
    requires IsTimeOfDay(m)
    ensures StepUp(m) == (m + StepMinutes) % MinutesPerDay <==> !(MinutesPerDay - StepMinutes < m)
    ensures StepDown(m) == (m - StepMinutes) % MinutesPerDay <==> !(0 < m < StepMinutes)
  {
  }
}

=== FILE: render.dfy ===
/** The diagram projection of `renderTracker`: a marker per active train at its
    station, or on the track section between two adjacent stations of the
    axis at a percentage of the section's height. Station index 0 is drawn at
    the top; a southbound service runs towards higher indices, a northbound
    one towards lower indices. */
module Render {

  import opened Timetable
  import opened Inference
  import opened Selector
  import opened Status

  /** Where a marker is placed: on station `index`, or on the track section
      between stations `index` and `index + 1`. */
  datatype Slot = StationSlot(index: nat) | SectionSlot(index: nat)

  /** `createTrainElement(train, percentage)`. */
  datatype Marker = Marker(service: Service, slot: Slot, percent: Ratio)

  /** Trains standing at a station are drawn halfway down its box. */
  const StationPercent: real := 50.0

  /** The section between `upper` (index i) and `lower` (index i + 1) carries
      a moving train whose from/to stations run that way in its direction. */
  function MatchesSection(direction: Direction, pos: Position, upper: string, lower: string): (b: bool)
    requires pos.Between?
    ensures b ==> (pos.fromStation == upper && pos.toStation == lower) || (pos.fromStation == lower && pos.toStation == upper)
    ensures b && upper != lower ==> (pos.fromStation == upper <==> direction == Southbound)
  {
    match direction
    case Northbound => pos.fromStation == lower && pos.toStation == upper
    case Southbound => pos.fromStation == upper && pos.toStation == lower
  }

  /** `progress * 100` southbound, `(1 - progress) * 100` northbound; NaN stays NaN. */
  function Percentage(direction: Direction, progress: Ratio): (p: Ratio)
    ensures p.NaN? <==> progress.NaN?
    ensures progress.Num? && 0.0 <= progress.value <= 1.0 ==> 0.0 <= p.value <= 100.0
  {
    match progress
    case NaN => NaN
    case Num(v) => if direction == Northbound then Num((1.0 - v) * 100.0) else Num(v * 100.0)
  }

  /** Markers for the trains standing at `stations[i]`, in entry order. */
  function StationMarkers(stations: seq<string>, i: nat, active: seq<Entry>): (r: seq<Marker>)
    requires i < |stations|
    ensures forall m :: m in r ==> m.slot == StationSlot(i) && m.percent == Num(StationPercent)
    ensures forall e :: e in active && e.position.AtStation? && e.position.station == stations[i] ==>
              Marker(e.service, StationSlot(i), Num(StationPercent)) in r
  {
    if |active| == 0 then []
    else
      var rest := StationMarkers(stations, i, active[1..]);
      var e := active[0];
      if e.position.AtStation? && e.position.station == stations[i]
      then [Marker(e.service, StationSlot(i), Num(StationPercent))] + rest
      else rest
  }

  /** A station marker stands for a train standing at that station. */
  lemma {:induction false} StationMarkerSource(stations: seq<string>, i: nat, active: seq<Entry>, m: Marker) returns (e: Entry)
    requires i < |stations| && m in StationMarkers(stations, i, active)
    ensures e in active && e.service == m.service && e.position.AtStation? && e.position.station == stations[i]
  {
    var rest := StationMarkers(stations, i, active[1..]);
    var head := active[0];
    if head.position.AtStation? && head.position.station == stations[i] && m == Marker(head.service, StationSlot(i), Num(StationPercent)) {
      e := head;
    } else {
      e := StationMarkerSource(stations, i, active[1..], m);
    }
  }

  /** Markers for the trains moving on the section below `stations[i]`. */
  function SectionMarkers(stations: seq<string>, i: nat, active: seq<Entry>): (r: seq<Marker>)
    requires i + 1 < |stations|
    ensures forall m :: m in r ==> m.slot == SectionSlot(i)
    ensures forall e :: e in active && e.position.Between? && MatchesSection(e.service.direction, e.position, stations[i], stations[i + 1]) ==>
              Marker(e.service, SectionSlot(i), Percentage(e.service.direction, e.position.progress)) in r
  {
    if |active| == 0 then []
    else
      var rest := SectionMarkers(stations, i, active[1..]);
      var e := active[0];
      if e.position.Between? && MatchesSection(e.service.direction, e.position, stations[i], stations[i + 1])
      then [Marker(e.service, SectionSlot(i), Percentage(e.service.direction, e.position.progress))] + rest
      else rest
  }

  /** A section marker stands for a train moving on that section, placed at
      its own progress. */
  lemma {:induction false} SectionMarkerSource(stations: seq<string>, i: nat, active: seq<Entry>, m: Marker) returns (e: Entry)
    requires i + 1 < |stations| && m in SectionMarkers(stations, i, active)
    ensures e in active && e.service == m.service && e.position.Between?
    ensures MatchesSection(e.service.direction, e.position, stations[i], stations[i + 1])
    ensures m.percent == Percentage(e.service.direction, e.position.progress)
  {
    var head := active[0];
    if head.position.Between? && MatchesSection(head.service.direction, head.position, stations[i], stations[i + 1]) &&
       m == Marker(head.service, SectionSlot(i), Percentage(head.service.direction, head.position.progress)) {
      e := head;
    } else {
      e := SectionMarkerSource(stations, i, active[1..], m);
    }
  }

  /** The stations from index `i` down, each followed by its section. */
  function LayoutFrom(stations: seq<string>, i: nat, active: seq<Entry>): (r: seq<Marker>)
    requires i <= |stations|
    ensures forall m :: m in r ==> i <= m.slot.index
    ensures forall m :: m in r && m.slot.StationSlot? ==> m.slot.index < |stations|
    ensures forall m :: m in r && m.slot.SectionSlot? ==> m.slot.index + 1 < |stations|
    decreases |stations| - i
  {
    if i == |stations| then []
    else
      var here := StationMarkers(stations, i, active);
      var below := if i + 1 < |stations| then SectionMarkers(stations, i, active) else [];
      here + below + LayoutFrom(stations, i + 1, active)
  }

  /** Every marker of the diagram. */
  function Layout(stations: seq<string>, active: seq<Entry>): seq<Marker> {
    LayoutFrom(stations, 0, active)
  }

  /** Every marker from index `i` down was produced for its own station or
      section. */
  lemma {:induction false} LayoutFromSound(stations: seq<string>, i: nat, active: seq<Entry>, m: Marker)
    requires i <= |stations| && m in LayoutFrom(stations, i, active)
    ensures m.slot.StationSlot? ==> m.slot.index < |stations| && m in StationMarkers(stations, m.slot.index, active)
    ensures m.slot.SectionSlot? ==> m.slot.index + 1 < |stations| && m in SectionMarkers(stations, m.slot.index, active)
    decreases |stations| - i
  {
    var here := StationMarkers(stations, i, active);
    var below := if i + 1 < |stations| then SectionMarkers(stations, i, active) else [];
    var rest := LayoutFrom(stations, i + 1, active);
    assert LayoutFrom(stations, i, active) == here + below + rest;
    if m !in here && m !in below {
      LayoutFromSound(stations, i + 1, active, m);
    }
  }

  /** Each train standing at a station from index `i` down gets its marker. */
  lemma LayoutFromStations(stations: seq<string>, i: nat, active: seq<Entry>)
    requires i <= |stations|
    ensures forall k, e :: i <= k < |stations| && e in active && e.position.AtStation? && e.position.station == stations[k] ==>
              Marker(e.service, StationSlot(k), Num(StationPercent)) in LayoutFrom(stations, i, active)
  {
    forall k, e | i <= k < |stations| && e in active && e.position.AtStation? && e.position.station == stations[k]
      ensures Marker(e.service, StationSlot(k), Num(StationPercent)) in LayoutFrom(stations, i, active)
    {
      StationPlaced(stations, i, active, k, e);
    }
  }

  lemma {:induction false} StationPlaced(stations: seq<string>, i: nat, active: seq<Entry>, k: nat, e: Entry)
    requires i <= k < |stations| && e in active && e.position.AtStation? && e.position.station == stations[k]
    ensures Marker(e.service, StationSlot(k), Num(StationPercent)) in LayoutFrom(stations, i, active)
    decreases k - i
  {
    var here := StationMarkers(stations, i, active);
    var below := if i + 1 < |stations| then SectionMarkers(stations, i, active) else [];
    var rest := LayoutFrom(stations, i + 1, active);
    assert LayoutFrom(stations, i, active) == here + below + rest;
    if k == i {
      assert Marker(e.service, StationSlot(k), Num(StationPercent)) in here;
    } else {
      StationPlaced(stations, i + 1, active, k, e);
    }
  }

  /** Each train moving on a section from index `i` down gets its marker. */
  lemma {:induction false} LayoutFromSections(stations: seq<string>, i: nat, active: seq<Entry>)
    requires i <= |stations|
    ensures forall k, e ::
              (i <= k && k + 1 < |stations| && e in active && e.position.Between? &&
               MatchesSection(e.service.direction, e.position, stations[k], stations[k + 1])) ==>
              Marker(e.service, SectionSlot(k), Percentage(e.service.direction, e.position.progress)) in LayoutFrom(stations, i, active)
    decreases |stations| - i
  {
    if i < |stations| {
      LayoutFromSections(stations, i + 1, active);
      var here := StationMarkers(stations, i, active);
      var below := if i + 1 < |stations| then SectionMarkers(stations, i, active) else [];
      assert LayoutFrom(stations, i, active) == here + below + LayoutFrom(stations, i + 1, active);
    }
  }

  /** A moving train that matches no section of the axis in its direction's
      orientation, such as a southbound-labelled train running from a lower
      station to the one above it, gets no marker at all: it silently drops
      off the diagram. */
  lemma UnmatchedNotDrawn(stations: seq<string>, active: seq<Entry>, e: Entry)
    requires e in active && e.position.Between?
    requires forall k :: 0 <= k && k + 1 < |stations| ==> !MatchesSection(e.service.direction, e.position, stations[k], stations[k + 1])
    requires forall x :: x in active && x.service == e.service ==> x == e
    ensures forall m :: m in Layout(stations, active) ==> m.service != e.service
  {
    forall m | m in Layout(stations, active)
      ensures m.service != e.service
    {
      LayoutFromSound(stations, 0, active, m);
      if m.slot.StationSlot? {
        var x := StationMarkerSource(stations, m.slot.index, active, m);
      } else {
        var x := SectionMarkerSource(stations, m.slot.index, active, m);
      }
    }
  }

  /** Moving entries carry a progress in [0, 1], or NaN. */
  predicate ProgressInRange(active: seq<Entry>) {
    forall e :: e in active && e.position.Between? && e.position.progress.Num? ==>
      0.0 <= e.position.progress.value <= 1.0
  }

  /** Every numeric placement on the diagram lies within its box, [0, 100]. */
  lemma LayoutInRange(stations: seq<string>, active: seq<Entry>)
    requires ProgressInRange(active)
    ensures forall m :: m in Layout(stations, active) && m.percent.Num? ==> 0.0 <= m.percent.value <= 100.0
  {
    forall m | m in Layout(stations, active) && m.percent.Num?
      ensures 0.0 <= m.percent.value <= 100.0
    {
      LayoutFromSound(stations, 0, active, m);
      if m.slot.SectionSlot? {
        SectionMarkerInRange(stations, m.slot.index, active, m);
      }
    }
  }

  lemma SectionMarkerInRange(stations: seq<string>, i: nat, active: seq<Entry>, m: Marker)
    requires i + 1 < |stations| && ProgressInRange(active)
    requires m in SectionMarkers(stations, i, active) && m.percent.Num?
    ensures 0.0 <= m.percent.value <= 100.0
  {
    var e := SectionMarkerSource(stations, i, active, m);
  }

  /** The entries `renderTracker` draws have progress in range. */
  lemma ActiveProgressInRange(trains: seq<Service>, stations: seq<string>, t: int)
    requires ValidTimetable(trains)
    ensures ProgressInRange(ActiveTrains(trains, stations, t))
  {
    var active := ActiveTrains(trains, stations, t);
    ActiveTrainsChoice(trains, stations, t);
    forall e | e in active && e.position.Between? && e.position.progress.Num?
      ensures 0.0 <= e.position.progress.value <= 1.0
    {
      var a :| 0 <= a < |active| && active[a] == e;
      var j :| 0 <= j < |trains| && trains[j] == e.service;
      BetweenProgress(trains, stations, e.service, t);
    }
  }

  /** On its section, a moving train's distance from the end it departed from
      is its progress: the southbound measure from the top and the northbound
      inversion from the bottom agree with the direction of travel. */
  lemma PlacementMeasuresTravel(direction: Direction, pos: Position, upper: string, lower: string)
    requires pos.Between? && pos.progress.Num? && upper != lower
    requires MatchesSection(direction, pos, upper, lower)
    ensures var p := Percentage(direction, pos.progress).value;
            (if pos.fromStation == upper then p else 100.0 - p) == pos.progress.value * 100.0
  {
  }

  /** On an axis without repeated names, a train drawn on a section is never
      given a passing clause: the status line's slice of intermediate stations
      is empty for the orientation the diagram uses. */
  lemma DrawnSectionHasNoPassingClause(stations: seq<string>, i: nat, direction: Direction, pos: Position)
    requires i + 1 < |stations| && pos.Between?
    requires forall a, b :: 0 <= a < b < |stations| ==> stations[a] != stations[b]
    requires MatchesSection(direction, pos, stations[i], stations[i + 1])
    ensures Intermediate(stations, direction, pos.fromStation, pos.toStation) == []
  {
    IntermediateOrientation(stations, direction, pos.fromStation, pos.toStation);
    assert IndexOf(stations, stations[i]) == i;
    assert IndexOf(stations, stations[i + 1]) == i + 1;
  }
}

=== FILE: scenarios.dfy ===
/** Worked timetables: the dwell-and-segment walk of one service, the
    pre-departure and clearance windows, the selector's tie-breaks, and the
    next-working lookup taking array order over start time.

    The clock strings of the worked timetables are parameters, constrained
    only by the minute `parseTime` reads from each; `PrintedReadings` shows
    that the strings "10:00", "10:20", ... as printed in a timetable meet
    those constraints. */
module Scenarios {

  import opened Wrappers
  import opened TimeText
  import opened Timetable
  import opened Inference
  import opened Selector
  import Render

  lemma ClockValue(s: string, h: nat, m: nat)
    requires |s| == 5 && IsDigit(s[0]) && IsDigit(s[1]) && s[2] == ':' && IsDigit(s[3]) && IsDigit(s[4])
    requires h == DigitValue(s[0]) * 10 + DigitValue(s[1]) && m == DigitValue(s[3]) * 10 + DigitValue(s[4])
    ensures IsClockString(s) && ParseTime(s) == h * 60 + m
  {
    assert s == [s[0], s[1]] + ":" + [s[3], s[4]];
    TwoCharValue(s[0], s[1]);
    TwoCharValue(s[3], s[4]);
    ParseOfSplit([s[0], s[1]], [s[3], s[4]]);
  }

  /** `s` is a time field that `parseTime` reads as `minutes`. */
  predicate Reads(s: string, minutes: nat) {
    IsClockString(s) && ParseTime(s) == minutes
  }

  /** The clock strings of the worked timetables. */
  datatype Clocks = Clocks(
    leaveA: string,   // 10:00
    reachB: string,   // 10:20
    leaveB: string,   // 10:25
    reachC: string,   // 10:40
    early: string,    // 11:00
    late: string,     // 11:40
    later: string)    // 12:20

  predicate Readings(k: Clocks) {
    && Reads(k.leaveA, 600) && Reads(k.reachB, 620) && Reads(k.leaveB, 625) && Reads(k.reachC, 640)
    && Reads(k.early, 660) && Reads(k.late, 700) && Reads(k.later, 740)
  }

  const Printed := Clocks("10:00", "10:20", "10:25", "10:40", "11:00", "11:40", "12:20")

  lemma PrintedReadings()
    ensures Readings(Printed)
  {
    ClockValue("10:00", 10, 0);
    ClockValue("10:20", 10, 20);
    ClockValue("10:25", 10, 25);
    ClockValue("10:40", 10, 40);
    ClockValue("11:00", 11, 0);
    ClockValue("11:40", 11, 40);
    ClockValue("12:20", 12, 20);
  }

  function Line(): seq<string> {
    ["A", "B", "C"]
  }

  /** A from 10:00, dwell at B 10:20-10:25, C at 10:40. */
  function Shuttle(k: Clocks): Service {
    Service("DMU1", Southbound, [
      Stop("A", None, Some(k.leaveA), None, true),
      Stop("B", Some(k.reachB), Some(k.leaveB), None, true),
      Stop("C", Some(k.reachC), None, None, true)])
  }

  /** The next DMU1 working: C at 11:00, A at 11:40. */
  function Return(k: Clocks): Service {
    Service("DMU1", Northbound, [Stop("C", None, Some(k.early), None, true), Stop("A", Some(k.late), None, None, true)])
  }

  /** A later DMU1 working: C at 11:40, A at 12:20. */
  function LateReturn(k: Clocks): Service {
    Service("DMU1", Northbound, [Stop("C", None, Some(k.late), None, true), Stop("A", Some(k.later), None, None, true)])
  }

  lemma ShuttleTimes(k: Clocks)
    requires Readings(k)
    ensures ValidService(Shuttle(k))
    ensures StartTime(Shuttle(k)) == 600 && EndTime(Shuttle(k)) == 640
    ensures DepartTime(Shuttle(k).stops[0]) == 600 && ArriveTime(Shuttle(k).stops[1]) == 620
    ensures DepartTime(Shuttle(k).stops[1]) == 625 && ArriveTime(Shuttle(k).stops[2]) == 640
    ensures InDwell(Shuttle(k).stops[1], 622)
  {
  }

  lemma ReturnTimes(k: Clocks)
    requires Readings(k)
    ensures ValidService(Return(k)) && StartTime(Return(k)) == 660 && EndTime(Return(k)) == 700
    ensures ValidService(LateReturn(k)) && StartTime(LateReturn(k)) == 700
  {
    ReturnStops(k.early, k.late);
    ReturnStops(k.late, k.later);
  }

  /** A two-stop northbound working from C to A. */
  lemma ReturnStops(leave: string, reach: string)
    requires IsClockString(leave) && IsClockString(reach)
    ensures var svc := Service("DMU1", Northbound, [Stop("C", None, Some(leave), None, true), Stop("A", Some(reach), None, None, true)]);
            ValidService(svc) && StartTime(svc) == ParseTime(leave) && EndTime(svc) == ParseTime(reach)
  {
  }

  /** Halfway from A to B at 10:10. */
  lemma MidSegment(k: Clocks, trains: seq<Service>)
    requires Readings(k) && ValidTimetable(trains)
    ensures ValidService(Shuttle(k))
    ensures FindTrainPosition(trains, Line(), Shuttle(k), 610) == Between("A", "B", Num(0.5), 600, 620)
  {
    ShuttleTimes(k);
    assert FirstHit(Shuttle(k).stops, 0, 610, 0);
  }

  /** Standing at B during its dwell at 10:22. */
  lemma Dwell(k: Clocks, trains: seq<Service>)
    requires Readings(k) && ValidTimetable(trains)
    ensures ValidService(Shuttle(k))
    ensures FindTrainPosition(trains, Line(), Shuttle(k), 622) == AtStation("B", false)
  {
    ShuttleTimes(k);
    assert FirstHit(Shuttle(k).stops, 1, 622, 0);
  }

  /** Waiting at the A terminus ten minutes early, absent sixteen minutes early. */
  lemma PreDeparture(k: Clocks, trains: seq<Service>)
    requires Readings(k) && ValidTimetable(trains)
    ensures ValidService(Shuttle(k))
    ensures FindTrainPosition(trains, Line(), Shuttle(k), 590) == AtStation("A", true)
    ensures FindTrainPosition(trains, Line(), Shuttle(k), 584) == Absent
  {
    ShuttleTimes(k);
    assert IsTerminus(Line(), "A");
  }

  /** With no later working, shown at C ten minutes after arrival, cleared at sixteen. */
  lemma Clearance(k: Clocks)
    requires Readings(k)
    ensures ValidService(Shuttle(k))
    ensures FindTrainPosition([Shuttle(k)], Line(), Shuttle(k), 650) == AtStation("C", false)
    ensures FindTrainPosition([Shuttle(k)], Line(), Shuttle(k), 656) == Absent
  {
    ShuttleTimes(k);
    assert !LeavesLater(Shuttle(k), "DMU1", "C", 650);
    assert !LeavesLater(Shuttle(k), "DMU1", "C", 656);
  }

  /** Two later workings from C: the 11:40 listed before the 11:00. */
  function OutOfOrder(k: Clocks): seq<Service> {
    [Shuttle(k), LateReturn(k), Return(k)]
  }

  lemma OutOfOrderValid(k: Clocks)
    requires Readings(k)
    ensures ValidTimetable(OutOfOrder(k))
  {
    ShuttleTimes(k);
    ReturnTimes(k);
    var trains := OutOfOrder(k);
    forall j | 0 <= j < |trains|
      ensures ValidService(trains[j])
    {
      if j == 0 {
        assert trains[j] == Shuttle(k);
      } else if j == 1 {
        assert trains[j] == LateReturn(k);
      } else {
        assert trains[j] == Return(k);
      }
    }
  }

  /** The next working found from C at 10:50 is the one listed first, leaving
      at 11:40, although another leaves C at 11:00. */
  lemma NextServiceNotEarliest(k: Clocks)
    requires Readings(k)
    ensures ValidTimetable(OutOfOrder(k))
    ensures NextService(OutOfOrder(k), "DMU1", "C", 650).Some?
    ensures NextService(OutOfOrder(k), "DMU1", "C", 650).value.departTime == 700
    ensures LeavesLater(OutOfOrder(k)[2], "DMU1", "C", 650) && StartTime(OutOfOrder(k)[2]) == 660
  {
    OutOfOrderValid(k);
    ShuttleTimes(k);
    ReturnTimes(k);
    var trains := OutOfOrder(k);
    assert !LeavesLater(trains[0], "DMU1", "C", 650);
    assert LeavesLater(trains[1], "DMU1", "C", 650);
  }

  lemma PairValid(k: Clocks)
    requires Readings(k)
    ensures ValidTimetable([Return(k), Shuttle(k)])
  {
    ShuttleTimes(k);
    ReturnTimes(k);
    var trains := [Return(k), Shuttle(k)];
    forall j | 0 <= j < |trains|
      ensures ValidService(trains[j])
    {
      if j == 0 {
        assert trains[j] == Return(k);
      } else {
        assert trains[j] == Shuttle(k);
      }
    }
  }

  /** One DMU1 working not yet due and one running: the running one is drawn. */
  lemma RunningServiceSelected(k: Clocks)
    requires Readings(k)
    ensures ValidTimetable([Return(k), Shuttle(k)])
    ensures ActiveTrains([Return(k), Shuttle(k)], Line(), 610) == [Entry(Shuttle(k), Between("A", "B", Num(0.5), 600, 620))]
  {
    var trains := [Return(k), Shuttle(k)];
    ReturnTimes(k);
    ShuttleTimes(k);
    PairValid(k);
    MidSegment(k, trains);
    var cs := Candidates(trains, Line(), 610);
    var running := Entry(Shuttle(k), Between("A", "B", Num(0.5), 600, 620));
    assert cs[0] == Entry(Return(k), Absent);
    assert cs[1] == running;
    assert SelectUpTo(cs, 610, 1) == Step([], cs[0], 610) == [];
    assert SelectUpTo(cs, 610, 2) == Step([], running, 610) == [running];
  }

  /** A DMU1 working from C at 10:20 to A at 10:40, crossing the shuttle. */
  function Crossing(k: Clocks): Service {
    Service("DMU1", Northbound, [Stop("C", None, Some(k.reachB), None, true), Stop("A", Some(k.reachC), None, None, true)])
  }

  /** At 10:10 the crossing working waits at C, listed first, while the
      shuttle runs from A to B: the running one replaces the waiting one. */
  lemma RunningOverWaiting(k: Clocks)
    requires Readings(k)
    ensures ValidTimetable([Crossing(k), Shuttle(k)])
    ensures ActiveTrains([Crossing(k), Shuttle(k)], Line(), 610) == [Entry(Shuttle(k), Between("A", "B", Num(0.5), 600, 620))]
  {
    var trains := [Crossing(k), Shuttle(k)];
    ShuttleTimes(k);
    ReturnStops(k.reachB, k.reachC);
    assert ValidService(trains[0]) && ValidService(trains[1]);
    MidSegment(k, trains);
    CrossingWaiting(k, trains);
    var waiting := Entry(Crossing(k), AtStation("C", true));
    var running := Entry(Shuttle(k), Between("A", "B", Num(0.5), 600, 620));
    var cs := Candidates(trains, Line(), 610);
    assert cs[0] == waiting;
    assert cs[1] == running;
    assert IsRunning(Shuttle(k), 610) && !IsRunning(Crossing(k), 610);
    assert KeyIndex([waiting], "DMU1") == Some(0);
    assert SelectUpTo(cs, 610, 1) == Step([], waiting, 610) == [waiting];
    assert SelectUpTo(cs, 610, 2) == Step([waiting], running, 610) == [running];
  }

  lemma CrossingWaiting(k: Clocks, trains: seq<Service>)
    requires Readings(k) && ValidTimetable(trains)
    ensures ValidService(Crossing(k))
    ensures FindTrainPosition(trains, Line(), Crossing(k), 610) == AtStation("C", true)
  {
    ReturnStops(k.reachB, k.reachC);
    assert IsTerminus(Line(), "C");
  }

  /** At 10:50 the return working waits at C and the arrived shuttle stands
      there too: the finished service is drawn over the one still to start. */
  lemma FinishedOverWaiting(k: Clocks)
    requires Readings(k)
    ensures ValidTimetable([Return(k), Shuttle(k)])
    ensures ActiveTrains([Return(k), Shuttle(k)], Line(), 650) == [Entry(Shuttle(k), AtStation("C", false))]
  {
    var trains := [Return(k), Shuttle(k)];
    ReturnTimes(k);
    ShuttleTimes(k);
    PairValid(k);
    ReturnWaiting(k, trains);
    ShuttleHeld(k, trains);
    var cs := Candidates(trains, Line(), 650);
    assert cs[0] == Entry(Return(k), AtStation("C", true));
    assert cs[1] == Entry(Shuttle(k), AtStation("C", false));
    WaitingThenHeld(k);
    assert SelectUpTo(cs, 650, 1) == [cs[0]];
    assert SelectUpTo(cs, 650, 2) == [cs[1]];
  }

  lemma ReturnWaiting(k: Clocks, trains: seq<Service>)
    requires Readings(k) && ValidTimetable(trains)
    ensures ValidService(Return(k))
    ensures FindTrainPosition(trains, Line(), Return(k), 650) == AtStation("C", true)
  {
    ReturnTimes(k);
    assert IsTerminus(Line(), "C");
  }

  lemma ShuttleHeld(k: Clocks, trains: seq<Service>)
    requires Readings(k) && ValidTimetable(trains) && |trains| > 0 && trains[0] == Return(k)
    ensures ValidService(Shuttle(k))
    ensures FindTrainPosition(trains, Line(), Shuttle(k), 650) == AtStation("C", false)
  {
    ShuttleTimes(k);
    ReturnTimes(k);
    assert LeavesLater(trains[0], "DMU1", "C", 650);
    assert HeldAtTerminus(trains, Shuttle(k), 650);
  }

  /** The selector's two steps on the waiting then the held candidate. */
  lemma WaitingThenHeld(k: Clocks)
    requires Readings(k)
    ensures ValidService(Return(k)) && ValidService(Shuttle(k))
    ensures Step([], Entry(Return(k), AtStation("C", true)), 650) == [Entry(Return(k), AtStation("C", true))]
    ensures Step([Entry(Return(k), AtStation("C", true))], Entry(Shuttle(k), AtStation("C", false)), 650)
            == [Entry(Shuttle(k), AtStation("C", false))]
  {
    ReturnTimes(k);
    ShuttleTimes(k);
    assert !IsRunning(Shuttle(k), 650) && HasFinished(Shuttle(k), 650);
    assert !IsRunning(Return(k), 650) && !HasFinished(Return(k), 650);
    assert KeyIndex([Entry(Return(k), AtStation("C", true))], "DMU1") == Some(0);
  }

  /** The southbound shuttle reported as moving from B back to A matches no
      section in its direction's orientation, so the diagram is empty. */
  lemma WrongWayNotDrawn(k: Clocks, p: Ratio)
    ensures Render.Layout(Line(), [Entry(Shuttle(k), Between("B", "A", p, 600, 620))]) == []
  {
    var active := [Entry(Shuttle(k), Between("B", "A", p, 600, 620))];
    Render.UnmatchedNotDrawn(Line(), active, active[0]);
    if Render.Layout(Line(), active) != [] {
      var m := Render.Layout(Line(), active)[0];
      Render.LayoutFromSound(Line(), 0, active, m);
      if m.slot.StationSlot? {
        var x := Render.StationMarkerSource(Line(), m.slot.index, active, m);
      } else {
        var x := Render.SectionMarkerSource(Line(), m.slot.index, active, m);
      }
    }
  }
}

=== FILE: selector.dfy ===
/** The active-train selection of `renderTracker`: one entry per train number,
    chosen among all services of that number whose position is not `null`.
    The script fills a plain object keyed by train number in timetable order;
    here that object is a sequence of entries in insertion order (assigning to
    an existing key keeps its place), built by a left fold over the services
    paired with their positions. */
module Selector {

  import opened Wrappers
  import opened Timetable
  import opened Inference

  /** The `{ train, position }` value stored per train number. */
  datatype Entry = Entry(service: Service, position: Position)

  /** Between its start and end time, ends included. */
  predicate IsRunning(svc: Service, t: int)
    requires ValidService(svc)
  {
    StartTime(svc) <= t <= EndTime(svc)
  }

  predicate HasFinished(svc: Service, t: int)
    requires ValidService(svc)
  {
    t > EndTime(svc)
  }

  /** Neither running nor finished: the service is still to start. */
  predicate NotStarted(svc: Service, t: int)
    requires ValidService(svc)
  {
    !IsRunning(svc, t) && !HasFinished(svc, t)
  }

  /** The tie-break between the entry already held for a train number and a
      new candidate with the same number: true when the candidate replaces it. */
  predicate Supersedes(candidate: Entry, held: Entry, t: int)
    requires ValidService(candidate.service) && ValidService(held.service)
  {
    var currentIsRunning := IsRunning(candidate.service, t);
    var existingIsRunning := IsRunning(held.service, t);
    if currentIsRunning && !existingIsRunning then true
    else if !currentIsRunning && existingIsRunning then false
    else if currentIsRunning && existingIsRunning then
      candidate.position.Between? && held.position.AtStation?
    else
      var currentHasFinished := HasFinished(candidate.service, t);
      var existingHasFinished := HasFinished(held.service, t);
      if currentHasFinished && !existingHasFinished then true
      else if existingHasFinished && !currentHasFinished then false
      else if currentHasFinished && existingHasFinished then
        EndTime(candidate.service) > EndTime(held.service)
      else false
  }

  /** The tier the tie-break ranks a shown service in: running between
      stations, running at a station, finished, still to start. */
  function Tier(e: Entry, t: int): (r: int)
    requires ValidService(e.service)
    ensures 1 <= r <= 4
    ensures r == 4 <==> IsRunning(e.service, t) && e.position.Between?
    ensures r == 2 <==> HasFinished(e.service, t)
    ensures r == 1 <==> NotStarted(e.service, t)
  {
    if IsRunning(e.service, t) then (if e.position.Between? then 4 else 3)
    else if HasFinished(e.service, t) then 2
    else 1
  }

  /** `a` ranks strictly above `b`: a higher tier, or both finished and `a`
      finishing later. Ranks are totally preordered; services of equal rank
      are ties. */
  predicate Outranks(a: Entry, b: Entry, t: int)
    requires ValidService(a.service) && ValidService(b.service)
  {
    || Tier(a, t) > Tier(b, t)
    || (Tier(a, t) == 2 && Tier(b, t) == 2 && EndTime(a.service) > EndTime(b.service))
  }

  predicate ValidEntries(acc: seq<Entry>) {
    forall a :: 0 <= a < |acc| ==> ValidService(acc[a].service)
  }

  predicate DistinctKeys(acc: seq<Entry>) {
    forall a, b :: 0 <= a < b < |acc| ==> acc[a].service.trainNumber != acc[b].service.trainNumber
  }

  /** Where the entry for `key` sits, if there is one. */
  function KeyIndex(acc: seq<Entry>, key: string): (r: Option<nat>)
    ensures r.Some? ==> r.value < |acc| && acc[r.value].service.trainNumber == key
    ensures r.Some? ==> forall a :: 0 <= a < r.value ==> acc[a].service.trainNumber != key
    ensures r.None? ==> forall a :: 0 <= a < |acc| ==> acc[a].service.trainNumber != key
  {
    if |acc| == 0 then None
    else if acc[0].service.trainNumber == key then Some(0)
    else
      match KeyIndex(acc[1..], key)
      case None => None
      case Some(k) => Some(k + 1)
  }

  /** `activeTrains[key]`. */
  function Held(acc: seq<Entry>, key: string): Option<Entry> {
    match KeyIndex(acc, key)
    case None => None
    case Some(k) => Some(acc[k])
  }

  /** One iteration of the selection loop, for a service and its position. */
  function Step(acc: seq<Entry>, candidate: Entry, t: int): seq<Entry>
    requires ValidEntries(acc) && ValidService(candidate.service)
  {
    if candidate.position.Absent? then acc
    else
      match KeyIndex(acc, candidate.service.trainNumber)
      case None => acc + [candidate]
      case Some(k) => if Supersedes(candidate, acc[k], t) then acc[k := candidate] else acc
  }

  /** How one iteration reshapes the object: a null position changes
      nothing, an entry keeps its place and only the one with the candidate's
      number may be replaced, and a new number is appended at the end. */
  lemma StepKeepsPlaces(acc: seq<Entry>, candidate: Entry, t: int)
    requires ValidEntries(acc) && ValidService(candidate.service)
    ensures var r := Step(acc, candidate, t);
            && (candidate.position.Absent? ==> r == acc)
            && |acc| <= |r| <= |acc| + 1
            && (forall a :: 0 <= a < |acc| ==>
                  r[a] == acc[a] || (r[a] == candidate && acc[a].service.trainNumber == candidate.service.trainNumber))
            && (|r| == |acc| + 1 ==> r[|acc|] == candidate && KeyIndex(acc, candidate.service.trainNumber).None?)
  {
  }

  /** The selection after the first `n` candidates. */
  function SelectUpTo(candidates: seq<Entry>, t: int, n: nat): (acc: seq<Entry>)
    requires ValidEntries(candidates) && n <= |candidates|
    ensures ValidEntries(acc)
  {
    if n == 0 then []
    else Step(SelectUpTo(candidates, t, n - 1), candidates[n - 1], t)
  }

  /** Every service of the timetable paired with its position at `t`. */
  function Candidates(trains: seq<Service>, stations: seq<string>, t: int): (candidates: seq<Entry>)
    requires ValidTimetable(trains)
    ensures ValidEntries(candidates)
  {
    seq(|trains|, j requires 0 <= j < |trains| => Entry(trains[j], FindTrainPosition(trains, stations, trains[j], t)))
  }

  /** `activeTrains` once the loop has visited every service. */
  function ActiveTrains(trains: seq<Service>, stations: seq<string>, t: int): seq<Entry>
    requires ValidTimetable(trains)
  {
    var candidates := Candidates(trains, stations, t);
    SelectUpTo(candidates, t, |candidates|)
  }

  // ---------------------------------------------------------------------------
  // What the selection guarantees about the candidates it has seen.

  /** Every entry is a candidate seen so far, with a non-null position. */
  predicate Sound(cs: seq<Entry>, n: nat, acc: seq<Entry>)
    requires n <= |cs|
  {
    forall a :: 0 <= a < |acc| ==> acc[a] in cs[..n] && !acc[a].position.Absent?
  }

  /** Every train number with a shown candidate has an entry. */
  predicate Complete(cs: seq<Entry>, n: nat, acc: seq<Entry>)
    requires n <= |cs|
  {
    forall j :: 0 <= j < n ==> ShownHeld(cs, acc, j)
  }

  predicate ShownHeld(cs: seq<Entry>, acc: seq<Entry>, j: nat)
    requires j < |cs|
  {
    !cs[j].position.Absent? ==> Held(acc, cs[j].service.trainNumber).Some?
  }

  /** Rule 1: if any shown service of a number is running, the held one is. */
  predicate RunningWins(cs: seq<Entry>, t: int, n: nat, acc: seq<Entry>)
    requires ValidEntries(cs) && n <= |cs| && ValidEntries(acc)
  {
    forall j :: 0 <= j < n ==> RunningCovered(cs, t, acc, j)
  }

  /** Rule 1 for the candidate `cs[j]`. */
  predicate RunningCovered(cs: seq<Entry>, t: int, acc: seq<Entry>, j: nat)
    requires ValidEntries(cs) && j < |cs| && ValidEntries(acc)
  {
    !cs[j].position.Absent? && IsRunning(cs[j].service, t) ==>
      && Held(acc, cs[j].service.trainNumber).Some?
      && IsRunning(Held(acc, cs[j].service.trainNumber).value.service, t)
  }

  /** Rule 2: if any running service of a number is between stations, the held one is. */
  predicate MovingWins(cs: seq<Entry>, t: int, n: nat, acc: seq<Entry>)
    requires ValidEntries(cs) && n <= |cs|
  {
    forall j :: 0 <= j < n ==> MovingCovered(cs, t, acc, j)
  }

  /** Rule 2 for the candidate `cs[j]`. */
  predicate MovingCovered(cs: seq<Entry>, t: int, acc: seq<Entry>, j: nat)
    requires ValidEntries(cs) && j < |cs|
  {
    IsRunning(cs[j].service, t) && cs[j].position.Between? ==>
      && Held(acc, cs[j].service.trainNumber).Some?
      && Held(acc, cs[j].service.trainNumber).value.position.Between?
  }

  /** No shown candidate numbered `key` among the first `n` is running. */
  predicate NoneRunning(cs: seq<Entry>, t: int, n: nat, key: string)
    requires ValidEntries(cs) && n <= |cs|
  {
    forall i :: 0 <= i < n && cs[i].service.trainNumber == key && !cs[i].position.Absent? ==> !IsRunning(cs[i].service, t)
  }

  /** Rules 3 and 4: with nothing of a number running, a finished service is
      held over one still to start, and the held one ended no earlier than any
      other shown finished one. */
  predicate LatestFinishedWins(cs: seq<Entry>, t: int, n: nat, acc: seq<Entry>)
    requires ValidEntries(cs) && n <= |cs| && ValidEntries(acc)
  {
    forall j :: 0 <= j < n ==> FinishedCovered(cs, t, n, acc, j)
  }

  /** Rules 3 and 4 for the candidate `cs[j]`. */
  predicate FinishedCovered(cs: seq<Entry>, t: int, n: nat, acc: seq<Entry>, j: nat)
    requires ValidEntries(cs) && j < n <= |cs| && ValidEntries(acc)
  {
    !cs[j].position.Absent? && HasFinished(cs[j].service, t) && NoneRunning(cs, t, n, cs[j].service.trainNumber) ==>
      && Held(acc, cs[j].service.trainNumber).Some?
      && HasFinished(Held(acc, cs[j].service.trainNumber).value.service, t)
      && EndTime(Held(acc, cs[j].service.trainNumber).value.service) >= EndTime(cs[j].service)
  }

  /** `j` is the first shown candidate numbered like itself. */
  predicate FirstShownOfNumber(cs: seq<Entry>, j: nat)
    requires j < |cs|
  {
    && !cs[j].position.Absent?
    && forall h :: 0 <= h < j && cs[h].service.trainNumber == cs[j].service.trainNumber ==> cs[h].position.Absent?
  }

  /** The default: when the held service is still to start, it is the first
      shown candidate of its number (first seen wins). */
  predicate FirstSeenDefault(cs: seq<Entry>, t: int, n: nat, acc: seq<Entry>)
    requires ValidEntries(cs) && n <= |cs| && ValidEntries(acc)
  {
    forall j :: 0 <= j < n ==> FirstSeenCovered(cs, t, acc, j)
  }

  /** The default for the candidate `cs[j]`. */
  predicate FirstSeenCovered(cs: seq<Entry>, t: int, acc: seq<Entry>, j: nat)
    requires ValidEntries(cs) && j < |cs| && ValidEntries(acc)
  {
    FirstShownOfNumber(cs, j) ==>
      && Held(acc, cs[j].service.trainNumber).Some?
      && (NotStarted(Held(acc, cs[j].service.trainNumber).value.service, t) ==>
            Held(acc, cs[j].service.trainNumber).value == cs[j])
  }

  predicate Invariant(cs: seq<Entry>, t: int, n: nat, acc: seq<Entry>)
    requires ValidEntries(cs) && n <= |cs| && ValidEntries(acc)
  {
    && DistinctKeys(acc)
    && Sound(cs, n, acc)
    && Complete(cs, n, acc)
    && RunningWins(cs, t, n, acc)
    && MovingWins(cs, t, n, acc)
    && LatestFinishedWins(cs, t, n, acc)
    && FirstSeenDefault(cs, t, n, acc)
  }

  // ---------------------------------------------------------------------------
  // Proofs.

  lemma KeyIndexOfDistinct(acc: seq<Entry>, k: nat, key: string)
    requires DistinctKeys(acc) && k < |acc| && acc[k].service.trainNumber == key
    ensures KeyIndex(acc, key) == Some(k)
  {
  }

  lemma {:induction false} SameKeysSameIndex(acc: seq<Entry>, acc2: seq<Entry>, key: string)
    requires |acc| == |acc2|
    requires forall a :: 0 <= a < |acc| ==> acc[a].service.trainNumber == acc2[a].service.trainNumber
    ensures KeyIndex(acc, key) == KeyIndex(acc2, key)
  {
    if |acc| > 0 && acc[0].service.trainNumber != key {
      SameKeysSameIndex(acc[1..], acc2[1..], key);
    }
  }

  /** How one loop iteration changes the entry held for any train number. */
  lemma HeldAfterStep(acc: seq<Entry>, c: Entry, t: int, key: string)
    requires ValidEntries(acc) && ValidService(c.service) && DistinctKeys(acc)
    ensures var next := Step(acc, c, t);
            && DistinctKeys(next)
            && (key != c.service.trainNumber ==> Held(next, key) == Held(acc, key))
            && (key == c.service.trainNumber ==>
                  Held(next, key) ==
                    if c.position.Absent? then Held(acc, key)
                    else if Held(acc, key).None? then Some(c)
                    else if Supersedes(c, Held(acc, key).value, t) then Some(c)
                    else Held(acc, key))
  {
    var next := Step(acc, c, t);
    if !c.position.Absent? {
      match KeyIndex(acc, c.service.trainNumber)
      case None =>
        assert next == acc + [c];
        if key == c.service.trainNumber {
          KeyIndexOfDistinct(next, |acc|, key);
        } else {
          var r := KeyIndex(acc, key);
          if r.Some? {
            KeyIndexOfDistinct(next, r.value, key);
          }
        }
      case Some(k) =>
        if Supersedes(c, acc[k], t) {
          assert next == acc[k := c];
          SameKeysSameIndex(acc, next, key);
        }
    }
  }

  /** A held entry is some shown candidate seen so far, numbered `key`. */
  lemma HeldWitness(cs: seq<Entry>, n: nat, acc: seq<Entry>, key: string) returns (i: nat)
    requires n <= |cs| && Sound(cs, n, acc) && Held(acc, key).Some?
    ensures i < n && cs[i] == Held(acc, key).value && cs[i].service.trainNumber == key
    ensures !cs[i].position.Absent?
  {
    var k := KeyIndex(acc, key).value;
    assert acc[k] in cs[..n];
    i :| 0 <= i < n && cs[..n][i] == acc[k];
  }

  lemma StepSound(cs: seq<Entry>, t: int, n: nat, acc: seq<Entry>)
    requires ValidEntries(cs) && n < |cs| && ValidEntries(acc)
    requires Sound(cs, n, acc)
    ensures Sound(cs, n + 1, Step(acc, cs[n], t))
  {
    assert cs[..n + 1] == cs[..n] + [cs[n]];
  }

  lemma StepComplete(cs: seq<Entry>, t: int, n: nat, acc: seq<Entry>)
    requires ValidEntries(cs) && n < |cs| && ValidEntries(acc)
    requires DistinctKeys(acc) && Complete(cs, n, acc)
    ensures Complete(cs, n + 1, Step(acc, cs[n], t))
  {
    var m, next := n + 1, Step(acc, cs[n], t);
    forall j | 0 <= j < m
      ensures ShownHeld(cs, next, j)
    {
      HeldAfterStep(acc, cs[n], t, cs[j].service.trainNumber);
      if j < n {
        assert ShownHeld(cs, acc, j);
      }
    }
  }

  lemma StepRunningWins(cs: seq<Entry>, t: int, n: nat, acc: seq<Entry>)
    requires ValidEntries(cs) && n < |cs| && ValidEntries(acc)
    requires DistinctKeys(acc) && Complete(cs, n, acc) && RunningWins(cs, t, n, acc)
    ensures RunningWins(cs, t, n + 1, Step(acc, cs[n], t))
  {
    var m, next := n + 1, Step(acc, cs[n], t);
    forall j | 0 <= j < m
      ensures RunningCovered(cs, t, next, j)
    {
      RunningAt(cs, t, n, acc, j);
    }
  }

  lemma RunningAt(cs: seq<Entry>, t: int, n: nat, acc: seq<Entry>, j: nat)
    requires ValidEntries(cs) && n < |cs| && ValidEntries(acc)
    requires DistinctKeys(acc) && Complete(cs, n, acc) && RunningWins(cs, t, n, acc)
    requires j < n + 1
    ensures RunningCovered(cs, t, Step(acc, cs[n], t), j)
  {
    HeldAfterStep(acc, cs[n], t, cs[j].service.trainNumber);
    if j < n {
      assert ShownHeld(cs, acc, j) && RunningCovered(cs, t, acc, j);
    }
  }

  lemma StepMovingWins(cs: seq<Entry>, t: int, n: nat, acc: seq<Entry>)
    requires ValidEntries(cs) && n < |cs| && ValidEntries(acc)
    requires DistinctKeys(acc) && Sound(cs, n, acc) && Complete(cs, n, acc)
    requires RunningWins(cs, t, n, acc) && MovingWins(cs, t, n, acc)
    ensures MovingWins(cs, t, n + 1, Step(acc, cs[n], t))
  {
    var m, next := n + 1, Step(acc, cs[n], t);
    forall j | 0 <= j < m
      ensures MovingCovered(cs, t, next, j)
    {
      MovingAt(cs, t, n, acc, j);
    }
  }

  lemma MovingAt(cs: seq<Entry>, t: int, n: nat, acc: seq<Entry>, j: nat)
    requires ValidEntries(cs) && n < |cs| && ValidEntries(acc)
    requires DistinctKeys(acc) && Sound(cs, n, acc) && Complete(cs, n, acc)
    requires RunningWins(cs, t, n, acc) && MovingWins(cs, t, n, acc)
    requires j < n + 1
    ensures MovingCovered(cs, t, Step(acc, cs[n], t), j)
  {
    var c := cs[n];
    var key := cs[j].service.trainNumber;
    HeldAfterStep(acc, c, t, key);
    if IsRunning(cs[j].service, t) && cs[j].position.Between? {
      if j < n {
        assert MovingCovered(cs, t, acc, j) && RunningCovered(cs, t, acc, j);
      }
      if key == c.service.trainNumber && !c.position.Absent? && Held(acc, key).Some? {
        var h := Held(acc, key).value;
        var i := HeldWitness(cs, n, acc, key);
        if j < n {
          MovingHeldKept(c, h, t);
        } else {
          MovingCandidateTakes(c, h, t);
        }
      }
    }
  }

  /** A running held service between stations is never displaced. */
  lemma MovingHeldKept(c: Entry, h: Entry, t: int)
    requires ValidService(c.service) && ValidService(h.service)
    requires IsRunning(h.service, t) && h.position.Between?
    ensures !Supersedes(c, h, t)
  {
  }

  /** A running candidate between stations is kept out only by a running
      held service that is itself between stations. */
  lemma MovingCandidateTakes(c: Entry, h: Entry, t: int)
    requires ValidService(c.service) && ValidService(h.service)
    requires IsRunning(c.service, t) && c.position.Between? && !h.position.Absent?
    ensures !Supersedes(c, h, t) ==> IsRunning(h.service, t) && h.position.Between?
  {
  }

  lemma StepLatestFinishedWins(cs: seq<Entry>, t: int, n: nat, acc: seq<Entry>)
    requires ValidEntries(cs) && n < |cs| && ValidEntries(acc)
    requires DistinctKeys(acc) && Sound(cs, n, acc) && Complete(cs, n, acc)
    requires LatestFinishedWins(cs, t, n, acc)
    ensures LatestFinishedWins(cs, t, n + 1, Step(acc, cs[n], t))
  {
    var m, next := n + 1, Step(acc, cs[n], t);
    forall j | 0 <= j < m
      ensures FinishedCovered(cs, t, m, next, j)
    {
      LatestFinishedAt(cs, t, n, acc, j);
    }
  }

  lemma LatestFinishedAt(cs: seq<Entry>, t: int, n: nat, acc: seq<Entry>, j: nat)
    requires ValidEntries(cs) && n < |cs| && ValidEntries(acc)
    requires DistinctKeys(acc) && Sound(cs, n, acc) && Complete(cs, n, acc)
    requires LatestFinishedWins(cs, t, n, acc)
    requires j < n + 1
    ensures FinishedCovered(cs, t, n + 1, Step(acc, cs[n], t), j)
  {
    var c := cs[n];
    var key := cs[j].service.trainNumber;
    if !cs[j].position.Absent? && HasFinished(cs[j].service, t) && NoneRunning(cs, t, n + 1, key) {
      HeldAfterStep(acc, c, t, key);
      if j < n {
        assert ShownHeld(cs, acc, j);
      }
      assert NoneRunning(cs, t, n, key);
      if key == c.service.trainNumber && !c.position.Absent? {
        assert !IsRunning(c.service, t);
        if Held(acc, key).None? {
          assert j == n;
        } else {
          var h := Held(acc, key).value;
          var i := HeldWitness(cs, n, acc, key);
          assert !IsRunning(h.service, t);
          if j < n {
            assert FinishedCovered(cs, t, n, acc, j);
            assert HasFinished(h.service, t) && EndTime(h.service) >= EndTime(cs[j].service);
          } else if !Supersedes(c, h, t) {
            assert HasFinished(h.service, t);
          }
        }
      } else if j < n {
        assert FinishedCovered(cs, t, n, acc, j);
      }
    }
  }

  /** A service still to start never displaces the held one. */
  lemma NotStartedNeverSupersedes(c: Entry, h: Entry, t: int)
    requires ValidService(c.service) && ValidService(h.service)
    requires NotStarted(c.service, t)
    ensures !Supersedes(c, h, t)
  {
  }

  lemma StepFirstSeenDefault(cs: seq<Entry>, t: int, n: nat, acc: seq<Entry>)
    requires ValidEntries(cs) && n < |cs| && ValidEntries(acc)
    requires DistinctKeys(acc) && Sound(cs, n, acc) && FirstSeenDefault(cs, t, n, acc)
    ensures FirstSeenDefault(cs, t, n + 1, Step(acc, cs[n], t))
  {
    var m, next := n + 1, Step(acc, cs[n], t);
    forall j | 0 <= j < m
      ensures FirstSeenCovered(cs, t, next, j)
    {
      FirstSeenAt(cs, t, n, acc, j);
    }
  }

  lemma FirstSeenAt(cs: seq<Entry>, t: int, n: nat, acc: seq<Entry>, j: nat)
    requires ValidEntries(cs) && n < |cs| && ValidEntries(acc)
    requires DistinctKeys(acc) && Sound(cs, n, acc) && FirstSeenDefault(cs, t, n, acc)
    requires j < n + 1
    ensures FirstSeenCovered(cs, t, Step(acc, cs[n], t), j)
  {
    var c := cs[n];
    var key := cs[j].service.trainNumber;
    HeldAfterStep(acc, c, t, key);
    if FirstShownOfNumber(cs, j) {
      if j < n {
        assert FirstSeenCovered(cs, t, acc, j);
      }
      if key == c.service.trainNumber && !c.position.Absent? {
        if j == n {
          if Held(acc, key).Some? {
            var i := HeldWitness(cs, n, acc, key);
            assert false;
          }
        } else {
          var h := Held(acc, key).value;
          if NotStarted(c.service, t) {
            NotStartedNeverSupersedes(c, h, t);
          }
        }
      }
    }
  }

  /** One loop iteration keeps the invariant, one more candidate seen. */
  lemma StepInvariant(cs: seq<Entry>, t: int, n: nat, acc: seq<Entry>)
    requires ValidEntries(cs) && 0 < n <= |cs| && ValidEntries(acc)
    requires Invariant(cs, t, n - 1, acc)
    ensures Invariant(cs, t, n, Step(acc, cs[n - 1], t))
  {
    var m := n - 1;
    HeldAfterStep(acc, cs[m], t, cs[m].service.trainNumber);
    StepSound(cs, t, m, acc);
    StepComplete(cs, t, m, acc);
    StepRunningWins(cs, t, m, acc);
    StepMovingWins(cs, t, m, acc);
    StepLatestFinishedWins(cs, t, m, acc);
    StepFirstSeenDefault(cs, t, m, acc);
  }

  lemma {:induction false} SelectUpToInvariant(cs: seq<Entry>, t: int, n: nat)
    requires ValidEntries(cs) && n <= |cs|
    ensures Invariant(cs, t, n, SelectUpTo(cs, t, n))
  {
    if n > 0 {
      var acc := SelectUpTo(cs, t, n - 1);
      SelectUpToInvariant(cs, t, n - 1);
      StepInvariant(cs, t, n, acc);
    }
  }

  /** The selection over a whole timetable: one entry per train number, each a
      timetable service with its own non-null position, every train number
      with a shown service represented, and the tie-break rules holding
      against every other shown service of the same number. */
  lemma ActiveTrainsChoice(trains: seq<Service>, stations: seq<string>, t: int)
    requires ValidTimetable(trains)
    ensures var active := ActiveTrains(trains, stations, t);
            && DistinctKeys(active)
            && (forall a :: 0 <= a < |active| ==>
                  && active[a].service in trains
                  && active[a].position == FindTrainPosition(trains, stations, active[a].service, t)
                  && !active[a].position.Absent?)
            && (forall j :: 0 <= j < |trains| && !FindTrainPosition(trains, stations, trains[j], t).Absent? ==>
                  Held(active, trains[j].trainNumber).Some?)
            && Invariant(Candidates(trains, stations, t), t, |trains|, active)
  {
    var cs := Candidates(trains, stations, t);
    var active := ActiveTrains(trains, stations, t);
    SelectUpToInvariant(cs, t, |cs|);
    assert cs[..|cs|] == cs;
    assert Sound(cs, |cs|, active) && Complete(cs, |cs|, active);
    forall a | 0 <= a < |active|
      ensures active[a].service in trains
      ensures active[a].position == FindTrainPosition(trains, stations, active[a].service, t)
      ensures !active[a].position.Absent?
    {
      var j :| 0 <= j < |cs| && cs[j] == active[a];
      assert active[a].service == trains[j];
    }
    forall j | 0 <= j < |trains| && !FindTrainPosition(trains, stations, trains[j], t).Absent?
      ensures Held(active, trains[j].trainNumber).Some?
    {
      assert cs[j].service == trains[j] && !cs[j].position.Absent?;
      assert ShownHeld(cs, active, j);
    }
  }

  // ---------------------------------------------------------------------------
  // The tie-break as a ranking: the held entry is the first shown candidate
  // of the highest rank.

  /** The tie-break replaces a (non-null) held entry exactly when the
      candidate outranks it. */
  lemma SupersedesIsOutranks(c: Entry, h: Entry, t: int)
    requires ValidService(c.service) && ValidService(h.service) && !h.position.Absent?
    ensures Supersedes(c, h, t) <==> Outranks(c, h, t)
  {
    if IsRunning(c.service, t) && IsRunning(h.service, t) {
      assert Tier(h, t) == 4 <==> h.position.Between?;
    }
  }

  /** Rank is a total preorder: what outranks `b` outranks everything `b`
      is not outranked by. */
  lemma OutranksThrough(a: Entry, b: Entry, x: Entry, t: int)
    requires ValidService(a.service) && ValidService(b.service) && ValidService(x.service)
    requires Outranks(a, b, t) && !Outranks(x, b, t)
    ensures Outranks(a, x, t) && !Outranks(x, a, t)
  {
  }

  /** The held entry for `cs[j]`'s number ranks at least as high as `cs[j]`. */
  predicate BestAt(cs: seq<Entry>, t: int, acc: seq<Entry>, j: nat)
    requires ValidEntries(cs) && j < |cs| && ValidEntries(acc)
  {
    var h := Held(acc, cs[j].service.trainNumber);
    !cs[j].position.Absent? && h.Some? ==> !Outranks(cs[j], h.value, t)
  }

  /** Unless it outranks `cs[j]`, the held entry for `cs[j]`'s number occurs
      at or before `cs[j]`: of equally ranked services the first is kept. */
  predicate FirstOfRankAt(cs: seq<Entry>, t: int, acc: seq<Entry>, j: nat)
    requires ValidEntries(cs) && j < |cs| && ValidEntries(acc)
  {
    var h := Held(acc, cs[j].service.trainNumber);
    !cs[j].position.Absent? && h.Some? && !Outranks(h.value, cs[j], t) ==> h.value in cs[..j + 1]
  }

  predicate Ranked(cs: seq<Entry>, t: int, n: nat, acc: seq<Entry>)
    requires ValidEntries(cs) && n <= |cs| && ValidEntries(acc)
  {
    forall j :: 0 <= j < n ==> BestAt(cs, t, acc, j) && FirstOfRankAt(cs, t, acc, j)
  }

  /** `cs[i]` is the first shown candidate of the highest rank among the
      first `n` candidates of its number. */
  predicate FirstBest(cs: seq<Entry>, t: int, n: nat, i: nat)
    requires ValidEntries(cs) && n <= |cs|
  {
    && i < n && !cs[i].position.Absent?
    && (forall j :: 0 <= j < n && cs[j].service.trainNumber == cs[i].service.trainNumber && !cs[j].position.Absent? ==>
          !Outranks(cs[j], cs[i], t))
    && (forall j :: 0 <= j < i && cs[j].service.trainNumber == cs[i].service.trainNumber && !cs[j].position.Absent? ==>
          Outranks(cs[i], cs[j], t))
  }

  /** The ranking facts for candidate `j` after one more iteration. */
  lemma RankedAt(cs: seq<Entry>, t: int, n: nat, acc: seq<Entry>, j: nat)
    requires ValidEntries(cs) && n < |cs| && ValidEntries(acc) && j <= n
    requires DistinctKeys(acc) && Sound(cs, n, acc) && Complete(cs, n, acc) && Ranked(cs, t, n, acc)
    ensures BestAt(cs, t, Step(acc, cs[n], t), j) && FirstOfRankAt(cs, t, Step(acc, cs[n], t), j)
  {
    if j < n {
      RankedEarlier(cs, t, n, acc, j);
    } else {
      RankedNewest(cs, t, n, acc);
    }
  }

  /** A held entry is never null. */
  lemma HeldShown(cs: seq<Entry>, n: nat, acc: seq<Entry>, key: string)
    requires n <= |cs| && Sound(cs, n, acc) && Held(acc, key).Some?
    ensures !Held(acc, key).value.position.Absent? && Held(acc, key).value in cs[..n]
  {
    var a := KeyIndex(acc, key).value;
    assert acc[a] == Held(acc, key).value;
  }

  /** The ranking facts for an earlier candidate survive one more iteration. */
  lemma RankedEarlier(cs: seq<Entry>, t: int, n: nat, acc: seq<Entry>, j: nat)
    requires ValidEntries(cs) && n < |cs| && ValidEntries(acc) && j < n
    requires DistinctKeys(acc) && Sound(cs, n, acc) && Complete(cs, n, acc) && Ranked(cs, t, n, acc)
    ensures BestAt(cs, t, Step(acc, cs[n], t), j) && FirstOfRankAt(cs, t, Step(acc, cs[n], t), j)
  {
    var c, key := cs[n], cs[j].service.trainNumber;
    HeldAfterStep(acc, c, t, key);
    assert BestAt(cs, t, acc, j) && FirstOfRankAt(cs, t, acc, j);
    if !cs[j].position.Absent? {
      assert ShownHeld(cs, acc, j);
      if key == c.service.trainNumber && !c.position.Absent? {
        var h := Held(acc, key).value;
        HeldShown(cs, n, acc, key);
        SupersedesIsOutranks(c, h, t);
        if Supersedes(c, h, t) {
          OutranksThrough(c, h, cs[j], t);
        }
      }
    }
  }

  /** The ranking facts hold for the candidate just visited. */
  lemma RankedNewest(cs: seq<Entry>, t: int, n: nat, acc: seq<Entry>)
    requires ValidEntries(cs) && n < |cs| && ValidEntries(acc)
    requires DistinctKeys(acc) && Sound(cs, n, acc)
    ensures BestAt(cs, t, Step(acc, cs[n], t), n) && FirstOfRankAt(cs, t, Step(acc, cs[n], t), n)
  {
    var c, key := cs[n], cs[n].service.trainNumber;
    HeldAfterStep(acc, c, t, key);
    assert cs[..n + 1] == cs[..n] + [c];
    if !c.position.Absent? && Held(acc, key).Some? {
      var h := Held(acc, key).value;
      HeldShown(cs, n, acc, key);
      SupersedesIsOutranks(c, h, t);
    }
  }

  lemma StepRanked(cs: seq<Entry>, t: int, n: nat, acc: seq<Entry>)
    requires ValidEntries(cs) && n < |cs| && ValidEntries(acc)
    requires DistinctKeys(acc) && Sound(cs, n, acc) && Complete(cs, n, acc) && Ranked(cs, t, n, acc)
    ensures Ranked(cs, t, n + 1, Step(acc, cs[n], t))
  {
    var m, next := n + 1, Step(acc, cs[n], t);
    forall j | 0 <= j < m
      ensures BestAt(cs, t, next, j) && FirstOfRankAt(cs, t, next, j)
    {
      RankedAt(cs, t, n, acc, j);
    }
  }

  /** The part of the selection invariant the ranking proof builds on. */
  lemma SelectUpToShape(cs: seq<Entry>, t: int, n: nat)
    requires ValidEntries(cs) && n <= |cs|
    ensures var acc := SelectUpTo(cs, t, n);
            DistinctKeys(acc) && Sound(cs, n, acc) && Complete(cs, n, acc)
  {
    SelectUpToInvariant(cs, t, n);
  }

  lemma {:induction false} SelectUpToRanked(cs: seq<Entry>, t: int, n: nat)
    requires ValidEntries(cs) && n <= |cs|
    ensures Ranked(cs, t, n, SelectUpTo(cs, t, n))
  {
    if n > 0 {
      var m := n - 1;
      var acc := SelectUpTo(cs, t, m);
      SelectUpToRanked(cs, t, m);
      SelectUpToShape(cs, t, m);
      StepRanked(cs, t, m, acc);
      assert SelectUpTo(cs, t, n) == Step(acc, cs[m], t);
    }
  }

  /** With the ranking facts in place, the entry held for a number is its
      first shown candidate of the highest rank. */
  lemma HeldIsFirstBest(cs: seq<Entry>, t: int, n: nat, acc: seq<Entry>, i: nat)
    requires ValidEntries(cs) && n <= |cs| && ValidEntries(acc)
    requires Sound(cs, n, acc) && Complete(cs, n, acc) && Ranked(cs, t, n, acc)
    requires FirstBest(cs, t, n, i)
    ensures Held(acc, cs[i].service.trainNumber) == Some(cs[i])
  {
    var key := cs[i].service.trainNumber;
    assert ShownHeld(cs, acc, i);
    assert BestAt(cs, t, acc, i) && FirstOfRankAt(cs, t, acc, i);
    var h := Held(acc, key).value;
    var w := HeldWitness(cs, n, acc, key);
    assert !Outranks(h, cs[i], t);
    var v :| 0 <= v < i + 1 && cs[..i + 1][v] == h;
  }

  /** A numeric rank: finished services score their end time, which lies
      before `t`; running ones score above every such time, and services still
      to start score below. */
  function Score(e: Entry, t: int): int
    requires ValidService(e.service)
  {
    var top := if t > 0 then t else 0;
    var tier := Tier(e, t);
    if tier == 4 then top + 1
    else if tier == 3 then top
    else if tier == 2 then EndTime(e.service)
    else -1
  }

  /** Outranking is comparison of scores. */
  lemma OutranksIsScore(a: Entry, b: Entry, t: int)
    requires ValidService(a.service) && ValidService(b.service)
    ensures Outranks(a, b, t) <==> Score(a, t) > Score(b, t)
  {
  }

  /** Among the marked positions, the first one with the highest score. */
  lemma FirstMaxExists(scores: seq<int>, marked: seq<bool>, j: nat) returns (i: nat)
    requires |marked| == |scores| && j < |scores| && marked[j]
    ensures i < |scores| && marked[i]
    ensures forall x :: 0 <= x < |scores| && marked[x] ==> scores[x] <= scores[i]
    ensures forall x :: 0 <= x < i && marked[x] ==> scores[x] < scores[i]
  {
    var b: nat := j;
    var k := 0;
    while k < |scores|
      invariant 0 <= k <= |scores| && b < |scores| && marked[b]
      invariant forall x :: 0 <= x < k && marked[x] ==> scores[x] <= scores[b]
    {
      if marked[k] && scores[k] > scores[b] {
        b := k;
      }
      k := k + 1;
    }
    i := 0;
    while !marked[i] || scores[i] < scores[b]
      invariant 0 <= i <= b
      invariant forall x :: 0 <= x < i && marked[x] ==> scores[x] < scores[b]
      decreases b - i
    {
      i := i + 1;
    }
  }

  /** Every number with a shown candidate among the first `n` has a first
      shown candidate of the highest rank. */
  lemma FirstBestExists(cs: seq<Entry>, t: int, n: nat, j: nat) returns (i: nat)
    requires ValidEntries(cs) && n <= |cs| && j < n && !cs[j].position.Absent?
    ensures FirstBest(cs, t, n, i) && cs[i].service.trainNumber == cs[j].service.trainNumber
  {
    var key := cs[j].service.trainNumber;
    var scores := seq(n, x requires 0 <= x < n => Score(cs[x], t));
    var marked := seq(n, x requires 0 <= x < n => cs[x].service.trainNumber == key && !cs[x].position.Absent?);
    i := FirstMaxExists(scores, marked, j);
    forall x | 0 <= x < n && cs[x].service.trainNumber == key && !cs[x].position.Absent?
      ensures !Outranks(cs[x], cs[i], t)
    {
      assert marked[x];
      OutranksIsScore(cs[x], cs[i], t);
    }
    forall x | 0 <= x < i && cs[x].service.trainNumber == key && !cs[x].position.Absent?
      ensures Outranks(cs[i], cs[x], t)
    {
      assert marked[x];
      OutranksIsScore(cs[i], cs[x], t);
    }
  }

  /** The selection over a whole timetable keeps, for every train number,
      the first shown service of the highest rank: running between stations
      over running at a station over finished (the latest end first) over
      still to start, and the earliest in timetable order among ties. */
  lemma ActiveTrainsFirstBest(trains: seq<Service>, stations: seq<string>, t: int, i: nat)
    requires ValidTimetable(trains)
    requires FirstBest(Candidates(trains, stations, t), t, |trains|, i)
    ensures Held(ActiveTrains(trains, stations, t), trains[i].trainNumber) ==
              Some(Entry(trains[i], FindTrainPosition(trains, stations, trains[i], t)))
  {
    var cs := Candidates(trains, stations, t);
    SelectUpToShape(cs, t, |cs|);
    SelectUpToRanked(cs, t, |cs|);
    HeldIsFirstBest(cs, t, |cs|, ActiveTrains(trains, stations, t), i);
  }

  /** Every train number with a shown service is drawn with its first shown
      service of the highest rank. */
  lemma ActiveTrainsShowsFirstBest(trains: seq<Service>, stations: seq<string>, t: int, j: nat) returns (i: nat)
    requires ValidTimetable(trains) && j < |trains|
    requires !FindTrainPosition(trains, stations, trains[j], t).Absent?
    ensures i < |trains| && trains[i].trainNumber == trains[j].trainNumber
    ensures FirstBest(Candidates(trains, stations, t), t, |trains|, i)
    ensures Held(ActiveTrains(trains, stations, t), trains[j].trainNumber) ==
              Some(Entry(trains[i], FindTrainPosition(trains, stations, trains[i], t)))
  {
    var cs := Candidates(trains, stations, t);
    i := FirstBestExists(cs, t, |cs|, j);
    ActiveTrainsFirstBest(trains, stations, t, i);
  }
}

=== FILE: status.dfy ===
/** `generateStatusText`: the one-line description shown per active train. */
module Status {

  import opened Wrappers
  import opened TimeText
  import opened Timetable
  import opened Inference

  /** The arrow between a train's origin and destination, with its spaces. */
  const Arrow := " \U{2192} "

  /** The separator `join` puts between the parts of a moving train's line. */
  const Bullet := " \U{2022} "

  /** `${n} minute${n !== 1 ? 's' : ''}`. */
  function MinutesText(n: int): string {
    IntToString(n) + " minute" + (if n != 1 then "s" else "")
  }

  /** Index of the first stop at `station` (`findIndex` / `find`). */
  function FindStop(stops: seq<Stop>, station: string): (r: Option<nat>)
    ensures r.Some? ==> r.value < |stops| && stops[r.value].station == station
    ensures r.Some? ==> forall k :: 0 <= k < r.value ==> stops[k].station != station
    ensures r.None? ==> forall k :: 0 <= k < |stops| ==> stops[k].station != station
  {
    if |stops| == 0 then None
    else if stops[0].station == station then Some(0)
    else
      match FindStop(stops[1..], station)
      case None => None
      case Some(k) => Some(k + 1)
  }

  /** `indexOf`: the first position of `name`, or -1. */
  function IndexOf(names: seq<string>, name: string): (r: int)
    ensures -1 <= r < |names|
    ensures r >= 0 ==> names[r] == name && forall k :: 0 <= k < r ==> names[k] != name
    ensures r == -1 ==> forall k :: 0 <= k < |names| ==> names[k] != name
  {
    if |names| == 0 then -1
    else if names[0] == name then 0
    else
      var r := IndexOf(names[1..], name);
      if r == -1 then -1 else r + 1
  }

  /** A `slice` bound: negative counts back from the end, then clamped. */
  function SliceBound(len: nat, i: int): (b: nat)
    ensures b <= len
  {
    if i < 0 then (if len + i < 0 then 0 else len + i)
    else if i > len then len else i
  }

  /** `s.slice(start, end)`. */
  function JsSlice<T>(s: seq<T>, start: int, end: int): (r: seq<T>)
    ensures |r| <= |s|
    ensures 0 <= start <= end <= |s| ==> r == s[start..end]
    ensures 0 <= end <= start ==> r == []
    // a negative bound counts back from the end, and one past either end is clamped
    ensures end < 0 && 0 <= start <= |s| + end ==> r == s[start..|s| + end]
    ensures start < 0 && 0 <= |s| + start <= end <= |s| ==> r == s[|s| + start..end]
    ensures start < -|s| && 0 <= end <= |s| ==> r == s[..end]
    ensures 0 <= start <= |s| <= end ==> r == s[start..]
    ensures start < 0 && end < 0 && 0 <= |s| + start <= |s| + end ==> r == s[|s| + start..|s| + end]
    // a resolved end at or before the resolved start gives nothing
    ensures end < 0 && |s| + end <= start ==> r == []
    ensures start < 0 && end < 0 && end <= start ==> r == []
    ensures |s| <= start ==> r == []
    ensures forall k :: 0 <= k < |r| ==> r[k] in s
  {
    var b, e := SliceBound(|s|, start), SliceBound(|s|, end);
    if b >= e then [] else s[b..e]
  }

  /** The topology stations the status line looks at between the two ends of
      a moving train's segment, picked by direction. */
  function Intermediate(stations: seq<string>, direction: Direction, fromStation: string, toStation: string): (r: seq<string>)
    ensures |r| <= |stations|
    ensures forall k :: 0 <= k < |r| ==> r[k] in stations
  {
    var fromIndex := IndexOf(stations, fromStation);
    var toIndex := IndexOf(stations, toStation);
    if direction == Northbound then JsSlice(stations, fromIndex + 1, toIndex)
    else JsSlice(stations, toIndex + 1, fromIndex)
  }

  /** With both ends on the axis, each direction's slice is empty when the
      train runs the way the diagram draws that direction (southbound towards
      higher indices, northbound towards lower), and is the stations strictly
      between the ends only when it runs the other way. */
  lemma IntermediateOrientation(stations: seq<string>, direction: Direction, fromStation: string, toStation: string)
    ensures var f, g := IndexOf(stations, fromStation), IndexOf(stations, toStation);
            var r := Intermediate(stations, direction, fromStation, toStation);
            && (direction == Southbound && 0 <= f < g ==> r == [])
            && (direction == Northbound && 0 <= g < f ==> r == [])
            && (direction == Southbound && 0 <= g < f ==> r == stations[g + 1..f])
            && (direction == Northbound && 0 <= f < g ==> r == stations[f + 1..g])
  {
  }

  /** A passing clause: a station passed without stopping, minutes away. */
  datatype Passing = Passing(station: string, minutes: int)

  /** `station` is still to be passed: its first stop record in the service
      does not stop there and lies strictly in the future. */
  predicate PassesLater(stops: seq<Stop>, station: string, t: int)
    requires ValidStops(stops)
  {
    var k := FindStop(stops, station);
    k.Some? && !stops[k.value].stopsAt && StopTime(stops[k.value]) - t > 0
  }

  function MinutesUntilPass(stops: seq<Stop>, station: string, t: int): int
    requires ValidStops(stops) && FindStop(stops, station).Some?
  {
    StopTime(stops[FindStop(stops, station).value]) - t
  }

  /** The passing clauses for `names`, in order. */
  function PassingStations(stops: seq<Stop>, names: seq<string>, t: int): (r: seq<Passing>)
    requires ValidStops(stops)
    ensures |r| <= |names|
    ensures forall k :: 0 <= k < |r| ==>
              && r[k].station in names
              && PassesLater(stops, r[k].station, t)
              && r[k].minutes == MinutesUntilPass(stops, r[k].station, t)
              && r[k].minutes > 0
    ensures forall k :: 0 <= k < |names| && PassesLater(stops, names[k], t) ==>
              Passing(names[k], MinutesUntilPass(stops, names[k], t)) in r
  {
    if |names| == 0 then []
    else
      var rest := PassingStations(stops, names[1..], t);
      if PassesLater(stops, names[0], t) then [Passing(names[0], MinutesUntilPass(stops, names[0], t))] + rest
      else rest
  }

  /** `idx` lists, strictly increasing, positions of `names`, and `r` holds
      the station at each. */
  predicate OrderedPositions(names: seq<string>, r: seq<Passing>, idx: seq<nat>) {
    && |idx| == |r|
    && (forall k :: 0 <= k < |idx| ==> idx[k] < |names| && r[k].station == names[idx[k]])
    && (forall k, l :: 0 <= k < l < |idx| ==> idx[k] < idx[l])
  }

  /** A clause for `names[0]` goes in front of clauses from later positions. */
  lemma ConsPositions(names: seq<string>, rest: seq<Passing>, shifted: seq<nat>, head: Passing)
    requires |names| > 0 && head.station == names[0] && OrderedPositions(names, rest, shifted)
    requires forall k :: 0 <= k < |shifted| ==> shifted[k] >= 1
    ensures OrderedPositions(names, [head] + rest, [0] + shifted)
  {
    var r, idx := [head] + rest, [0] + shifted;
    forall k | 0 < k < |idx|
      ensures idx[k] < |names| && r[k].station == names[idx[k]]
    {
      assert idx[k] == shifted[k - 1] && r[k] == rest[k - 1];
    }
    forall k, l | 0 <= k < l < |idx|
      ensures idx[k] < idx[l]
    {
      assert idx[l] == shifted[l - 1];
      if k > 0 {
        assert idx[k] == shifted[k - 1];
      }
    }
  }

  /** Positions in `names[1..]` moved up by one are positions in `names`. */
  lemma ShiftPositions(names: seq<string>, rest: seq<Passing>, tail: seq<nat>) returns (shifted: seq<nat>)
    requires |names| > 0 && OrderedPositions(names[1..], rest, tail)
    ensures OrderedPositions(names, rest, shifted)
    ensures forall k :: 0 <= k < |shifted| ==> shifted[k] >= 1
    ensures forall a :: 0 < a < |names| && a - 1 in tail ==> a in shifted
  {
    shifted := seq(|tail|, k requires 0 <= k < |tail| => tail[k] + 1);
    forall k | 0 <= k < |shifted|
      ensures shifted[k] < |names| && rest[k].station == names[shifted[k]]
    {
      assert names[1..][tail[k]] == names[shifted[k]];
    }
    forall a | 0 < a < |names| && a - 1 in tail
      ensures a in shifted
    {
      var k :| 0 <= k < |tail| && tail[k] == a - 1;
      assert shifted[k] == a;
    }
  }

  lemma PassedLaterShift(stops: seq<Stop>, names: seq<string>, t: int, tail: seq<nat>)
    requires ValidStops(stops) && |names| > 0
    requires forall b :: 0 <= b < |names[1..]| && PassesLater(stops, names[1..][b], t) ==> b in tail
    ensures forall a :: 0 < a < |names| && PassesLater(stops, names[a], t) ==> a - 1 in tail
  {
    forall a | 0 < a < |names| && PassesLater(stops, names[a], t)
      ensures a - 1 in tail
    {
      assert names[1..][a - 1] == names[a];
    }
  }

  /** The clauses are exactly the passed stations of `names`, in the order
      of `names`: `idx` gives, strictly increasing, the position each clause
      comes from, and every passed position appears in it. */
  lemma {:induction false} PassingStationsInOrder(stops: seq<Stop>, names: seq<string>, t: int) returns (idx: seq<nat>)
    requires ValidStops(stops)
    ensures OrderedPositions(names, PassingStations(stops, names, t), idx)
    ensures forall a :: 0 <= a < |names| && PassesLater(stops, names[a], t) ==> a in idx
  {
    if |names| == 0 {
      idx := [];
    } else {
      var r, rest := PassingStations(stops, names, t), PassingStations(stops, names[1..], t);
      var tail := PassingStationsInOrder(stops, names[1..], t);
      var shifted := ShiftPositions(names, rest, tail);
      PassedLaterShift(stops, names, t, tail);
      if PassesLater(stops, names[0], t) {
        idx := [0] + shifted;
        var head := Passing(names[0], MinutesUntilPass(stops, names[0], t));
        assert r == [head] + rest;
        ConsPositions(names, rest, shifted, head);
      } else {
        idx := shifted;
        assert r == rest;
      }
    }
  }

  function PassingClause(p: Passing): string {
    "Passing " + p.station + " in " + MinutesText(p.minutes)
  }

  /** `parts.join(sep)`. */
  function Join(parts: seq<string>, sep: string): string {
    if |parts| == 0 then ""
    else if |parts| == 1 then parts[0]
    else parts[0] + sep + Join(parts[1..], sep)
  }

  /** The arrival half of a moving train's line; it reads "arriving now"
      exactly when the train arrives this minute. */
  function ArrivalText(arriveTime: int, t: int): (r: string)
    ensures r == "arriving now" <==> arriveTime == t
  {
    var minutesUntilArrival := arriveTime - t;
    if minutesUntilArrival == 0 then "arriving now"
    else
      var f, m := FormatTime(arriveTime), MinutesText(minutesUntilArrival);
      var r := "arriving " + f + " in " + m;
      assert |r| == 9 + |f| + 4 + |m| > |"arriving now"|;
      r
  }

  /** The status line of a moving train. */
  function BetweenText(stops: seq<Stop>, stations: seq<string>, direction: Direction, pos: Position, t: int): string
    requires ValidStops(stops) && pos.Between?
  {
    var head := "Traveling from " + pos.fromStation + " (departed " + FormatTime(pos.departTime) + ")" + Arrow
                + pos.toStation + " (" + ArrivalText(pos.arriveTime, t) + ")";
    var passing := PassingStations(stops, Intermediate(stations, direction, pos.fromStation, pos.toStation), t);
    Join([head] + seq(|passing|, k requires 0 <= k < |passing| => PassingClause(passing[k])), Bullet)
  }

  /** An at-station position that is neither pre-departure nor at a terminus,
      which the script looks up among the service's stops. */
  predicate AtIntermediate(stations: seq<string>, pos: Position) {
    pos.AtStation? && !pos.waitingForDeparture && !IsTerminus(stations, pos.station)
  }

  /** What `generateStatusText` needs not to throw: for an intermediate
      at-station position the station is one of the service's stops, and if
      that stop has a departure, a next stop follows it. */
  predicate StatusDefined(stations: seq<string>, train: Service, pos: Position) {
    AtIntermediate(stations, pos) ==>
      var k := FindStop(train.stops, pos.station);
      k.Some? && (train.stops[k.value].departure.Some? ==> k.value + 1 < |train.stops|)
  }

  /** An intermediate stop without a departure: the script writes no line. */
  predicate SilentDwell(stations: seq<string>, train: Service, pos: Position)
    requires StatusDefined(stations, train, pos)
  {
    AtIntermediate(stations, pos) && train.stops[FindStop(train.stops, pos.station).value].departure.None?
  }

  /** A terminus with no later working from it. */
  predicate Terminated(trains: seq<Service>, stations: seq<string>, train: Service, pos: Position, t: int)
    requires ValidTimetable(trains)
  {
    && pos.AtStation? && !pos.waitingForDeparture && IsTerminus(stations, pos.station)
    && NextService(trains, train.trainNumber, pos.station, t).None?
  }

  /** `generateStatusText`. */
  function StatusText(trains: seq<Service>, stations: seq<string>, train: Service, pos: Position, t: int): (r: Option<string>)
    requires ValidTimetable(trains) && ValidService(train) && StatusDefined(stations, train, pos)
    ensures r.None? <==> pos.Absent? || SilentDwell(stations, train, pos)
  {
    var stops := train.stops;
    match pos
    case Absent => None
    case AtStation(station, waitingForDeparture) =>
      if waitingForDeparture then
        var departTime := StopTime(stops[0]);
        Some("Waiting at " + station + ", departing at " + FormatTime(departTime)
             + " (departing in " + MinutesText(departTime - t) + ")")
      else if IsTerminus(stations, station) then
        match NextService(trains, train.trainNumber, station, t)
        case Some(next) =>
          Some("Waiting at " + station + ", next departure at " + FormatTime(next.departTime)
               + " (departing in " + MinutesText(next.departTime - t) + ")")
        case None => Some("Terminated at " + station)
      else
        var k := FindStop(stops, station).value;
        var currentStop := stops[k];
        if currentStop.departure.Some? then
          Some("At " + station + ", departing at " + currentStop.departure.value
               + " (in " + MinutesText(ParseTime(currentStop.departure.value) - t) + ")" + Arrow
               + stops[k + 1].station)
        else None
    case Between(_, _, _, _, _) =>
      Some(BetweenText(stops, stations, train.direction, pos, t))
  }

  // ---------------------------------------------------------------------------
  // Properties of the wording.

  /** "minute" stays singular for a count of exactly one and no other. */
  lemma MinuteSingularOnlyForOne(n: int)
    ensures var s := MinutesText(n);
            s[|s| - 1] == 's' <==> n != 1
  {
  }

  /** "Terminated at <station>" is written exactly for a train at a terminus
      with no later working from it. */
  lemma TerminatedExactly(trains: seq<Service>, stations: seq<string>, train: Service, pos: Position, t: int)
    requires ValidTimetable(trains) && ValidService(train) && StatusDefined(stations, train, pos)
    requires pos.AtStation?
    ensures StatusText(trains, stations, train, pos, t) == Some("Terminated at " + pos.station) <==>
              Terminated(trains, stations, train, pos, t)
  {
    var r := StatusText(trains, stations, train, pos, t);
    if r.Some? && !Terminated(trains, stations, train, pos, t) {
      assert r.value[0] != 'T';
    }
  }
}

=== FILE: time_text.dfy ===
/** Clock strings and the number-to-text conversions of the tracker script:
    `parseTime` ("HH:MM" to minutes since midnight), `formatTime` (minutes to
    zero-padded "HH:MM"), and the decimal rendering JavaScript applies when an
    integer is spliced into a template string. */
module TimeText {

  import opened Wrappers

  predicate IsDigit(c: char) {
    '0' <= c <= '9'
  }

  function DigitValue(c: char): nat
    requires IsDigit(c)
  {
    c as int - '0' as int
  }

  function DigitChar(d: nat): (c: char)
    requires d < 10
    ensures IsDigit(c) && DigitValue(c) == d
  {
    ('0' as int + d) as char
  }

  predicate AllDigits(s: string) {
    forall k :: 0 <= k < |s| ==> IsDigit(s[k])
  }

  /** `Number(s)` for a string of decimal digits (leading zeros ignored). */
  function DigitsValue(s: string): nat
    requires AllDigits(s)
  {
    if |s| == 0 then 0 else DigitsValue(s[..|s| - 1]) * 10 + DigitValue(s[|s| - 1])
  }

  /** `String(n)` for a non-negative integer: shortest decimal, no leading zero. */
  function NatToString(n: nat): (s: string)
    ensures |s| > 0 && AllDigits(s)
    ensures DigitsValue(s) == n
    ensures |s| > 1 ==> s[0] != '0'
    decreases n
  {
    if n < 10 then [DigitChar(n)]
    else
      var p := NatToString(n / 10);
      var s := p + [DigitChar(n % 10)];
      assert s[..|s| - 1] == p;
      s
  }

  /** `String(i)` for any integer: a minus sign before the magnitude. */
  function IntToString(i: int): (s: string)
    ensures |s| > 0
    ensures s[0] == '-' <==> i < 0
    ensures i >= 0 ==> AllDigits(s) && DigitsValue(s) == i
    ensures i < 0 ==> AllDigits(s[1..]) && DigitsValue(s[1..]) == -i
    // no leading zero: the shortest decimal form, as JavaScript writes it
    ensures i >= 0 && |s| > 1 ==> s[0] != '0'
    ensures i < 0 ==> |s| > 1 && s[1] != '0'
    ensures IsDigit(s[|s| - 1])
  {
    if i < 0 then
      var magnitude := NatToString(-i);
      assert ("-" + magnitude)[1..] == magnitude;
      "-" + magnitude
    else NatToString(i)
  }

  /** `s.padStart(2, '0')`. */
  function PadStart2(s: string): (r: string)
    ensures |r| == if |s| < 2 then 2 else |s|
    ensures r[|r| - |s|..] == s
    ensures forall k :: 0 <= k < |r| - |s| ==> r[k] == '0'
  {
    if |s| == 0 then "00" else if |s| == 1 then "0" + s else s
  }

  /** JavaScript's `a % b`: the remainder takes the sign of the dividend. */
  function JsRem(a: int, b: int): (r: int)
    requires b > 0
    ensures -b < r < b
    ensures a >= 0 ==> r == a % b
    ensures a < 0 ==> r <= 0
    ensures (a - r) % b == 0
  {
    if a >= 0 then
      var q := a / b;
      MultipleRemainder(a - a % b, q, b);
      a % b
    else
      var q := (-a) / b;
      MultipleRemainder(a + (-a) % b, -q, b);
      -((-a) % b)
  }

  /** A multiple of `b` leaves no remainder. */
  lemma MultipleRemainder(m: int, q: int, b: int)
    requires b > 0 && m == q * b
    ensures m % b == 0
  {
    var d := q - m / b;
    assert d * b == m % b by {
      assert m == (m / b) * b + m % b;
    }
  }

  /** Index of the first occurrence of `c` in `s`. */
  function IndexOfChar(s: string, c: char): (r: Option<nat>)
    ensures r.Some? ==> r.value < |s| && s[r.value] == c
  {
    if |s| == 0 then None
    else if s[0] == c then Some(0)
    else
      match IndexOfChar(s[1..], c)
      case None => None
      case Some(k) => Some(k + 1)
  }

  /** The strings `parseTime` gives a number for: one colon with a non-empty run
      of decimal digits on each side. */
  predicate IsClockString(s: string) {
    var colon := IndexOfChar(s, ':');
    && colon.Some?
    && 0 < colon.value < |s| - 1
    && AllDigits(s[..colon.value])
    && AllDigits(s[colon.value + 1..])
  }

  /** `parseTime`: hours before the colon, minutes after it. */
  function ParseTime(s: string): nat
    requires IsClockString(s)
  {
    var k := IndexOfChar(s, ':').value;
    DigitsValue(s[..k]) * 60 + DigitsValue(s[k + 1..])
  }

  /** `formatTime`: floored hours and JavaScript remainder minutes, each padded
      to two characters. */
  function FormatTime(minutes: int): (s: string)
    ensures |s| >= 5
    ensures s[0] == '-' || IsDigit(s[0])
  {
    PadStart2(IntToString(minutes / 60)) + ":" + PadStart2(IntToString(JsRem(minutes, 60)))
  }

  /** The canonical "HH:MM" form: two digits, a colon, two digits, minutes below 60. */
  predicate IsCanonicalClock(s: string) {
    && |s| == 5
    && IsDigit(s[0]) && IsDigit(s[1]) && s[2] == ':' && IsDigit(s[3]) && IsDigit(s[4])
    && DigitValue(s[3]) * 10 + DigitValue(s[4]) < 60
  }

  lemma {:induction false} LeadingZeroValue(s: string)
    requires AllDigits(s)
    ensures AllDigits("0" + s) && DigitsValue("0" + s) == DigitsValue(s)
  {
    var z := "0" + s;
    if |s| > 0 {
      assert z[..|z| - 1] == "0" + s[..|s| - 1];
      LeadingZeroValue(s[..|s| - 1]);
    } else {
      assert z[..|z| - 1] == [];
    }
  }

  lemma PadKeepsValue(s: string)
    requires AllDigits(s)
    ensures AllDigits(PadStart2(s)) && DigitsValue(PadStart2(s)) == DigitsValue(s)
  {
    if |s| == 0 {
      assert "00" == "0" + "0";
      LeadingZeroValue("0");
      LeadingZeroValue([]);
    } else if |s| == 1 {
      LeadingZeroValue(s);
    }
  }

  /** A padded value below one hundred is exactly its two decimal digits. */
  lemma TwoDigits(x: nat)
    requires x < 100
    ensures PadStart2(NatToString(x)) == [DigitChar(x / 10), DigitChar(x % 10)]
  {
    var q, r := x / 10, x % 10;
    if x >= 10 {
      assert 0 < q < 10;
      assert NatToString(q) == [DigitChar(q)];
      assert NatToString(x) == [DigitChar(q)] + [DigitChar(r)];
    } else {
      assert q == 0 && r == x;
      assert NatToString(x) == [DigitChar(r)];
    }
  }

  /** `indexOf` finds the first occurrence, and reports none only when there is none. */
  lemma {:induction false} IndexOfCharFirst(s: string, c: char)
    ensures var r := IndexOfChar(s, c);
            && (r.Some? ==> forall k :: 0 <= k < r.value ==> s[k] != c)
            && (r.None? ==> forall k :: 0 <= k < |s| ==> s[k] != c)
  {
    if |s| > 0 && s[0] != c {
      IndexOfCharFirst(s[1..], c);
      var r := IndexOfChar(s, c);
      if r.Some? {
        assert forall k :: 1 <= k < r.value ==> s[k] == s[1..][k - 1];
      } else {
        assert forall k :: 1 <= k < |s| ==> s[k] == s[1..][k - 1];
      }
    }
  }

  lemma ColonSplit(a: string, b: string)
    requires AllDigits(a) && AllDigits(b) && |a| > 0 && |b| > 0
    ensures IndexOfChar(a + ":" + b, ':') == Some(|a|)
    ensures (a + ":" + b)[..|a|] == a && (a + ":" + b)[|a| + 1..] == b
  {
    var s := a + ":" + b;
    var r := IndexOfChar(s, ':');
    IndexOfCharFirst(s, ':');
    assert s[|a|] == ':';
    assert forall k :: 0 <= k < |a| ==> s[k] == a[k];
    assert r.Some?;
    assert r.value == |a|;
    assert s[|a| + 1..] == b;
  }

  lemma TwoCharValue(c0: char, c1: char)
    requires IsDigit(c0) && IsDigit(c1)
    ensures AllDigits([c0, c1]) && DigitsValue([c0, c1]) == DigitValue(c0) * 10 + DigitValue(c1)
  {
    assert [c0, c1][..1] == [c0];
    assert [c0][..0] == [];
    assert DigitsValue([c0]) == DigitValue(c0);
    assert DigitsValue([c0, c1]) == DigitsValue([c0]) * 10 + DigitValue(c1);
  }

  /** Two digits are reproduced by padding the decimal text of their value. */
  lemma PaddedDigits(c0: char, c1: char)
    requires IsDigit(c0) && IsDigit(c1)
    ensures PadStart2(NatToString(DigitValue(c0) * 10 + DigitValue(c1))) == [c0, c1]
  {
    var d0, d1 := DigitValue(c0), DigitValue(c1);
    var x := d0 * 10 + d1;
    DivModTen(x, d0, d1);
    TwoDigits(x);
    CharOfValue(c0);
    CharOfValue(c1);
  }

  lemma CharOfValue(c: char)
    requires IsDigit(c)
    ensures DigitChar(DigitValue(c)) == c
  {
  }

  lemma DivModTen(m: int, q: int, r: int)
    requires 0 <= r < 10 && m == q * 10 + r
    ensures m / 10 == q && m % 10 == r
  {
  }

  lemma DivModUnique(m: int, q: int, r: int)
    requires 0 <= r < 60 && m == q * 60 + r
    ensures m / 60 == q && m % 60 == r
  {
  }

  /** For a non-negative count, `formatTime` pads the plain decimal quotient and remainder. */
  lemma FormatNonNegative(m: int)
    requires m >= 0
    ensures FormatTime(m) == PadStart2(NatToString(m / 60)) + ":" + PadStart2(NatToString(m % 60))
  {
    assert JsRem(m, 60) == m % 60;
    assert IntToString(m / 60) == NatToString(m / 60);
    assert IntToString(m % 60) == NatToString(m % 60);
  }

  /** Every non-negative minute count survives `formatTime` then `parseTime`;
      for times of day the text is the five-character "HH:MM". */
  lemma FormatParseRoundTrip(m: int)
    requires m >= 0
    ensures IsClockString(FormatTime(m)) && ParseTime(FormatTime(m)) == m
    ensures m < 1440 ==> |FormatTime(m)| == 5 && FormatTime(m)[2] == ':' && IsCanonicalClock(FormatTime(m))
  {
    var q, r := m / 60, m % 60;
    assert m == q * 60 + r;
    var h := PadStart2(NatToString(q));
    var mm := PadStart2(NatToString(r));
    FormatNonNegative(m);
    PadKeepsValue(NatToString(q));
    PadKeepsValue(NatToString(r));
    ColonSplit(h, mm);
    assert ParseTime(FormatTime(m)) == DigitsValue(h) * 60 + DigitsValue(mm);
    if m < 1440 {
      TwoDigits(q);
      TwoDigits(r);
    }
  }

  /** `parseTime` of two digit runs joined by a colon. */
  lemma ParseOfSplit(a: string, b: string)
    requires AllDigits(a) && AllDigits(b) && |a| > 0 && |b| > 0
    ensures IsClockString(a + ":" + b)
    ensures ParseTime(a + ":" + b) == DigitsValue(a) * 60 + DigitsValue(b)
  {
    ColonSplit(a, b);
  }

  /** `parseTime` of a canonical string reads its two digit pairs. */
  lemma ParseCanonical(s: string)
    requires IsCanonicalClock(s)
    ensures IsClockString(s)
    ensures ParseTime(s) == (DigitValue(s[0]) * 10 + DigitValue(s[1])) * 60 + (DigitValue(s[3]) * 10 + DigitValue(s[4]))
  {
    var a, b := [s[0], s[1]], [s[3], s[4]];
    assert s == a + ":" + b;
    TwoCharValue(s[0], s[1]);
    TwoCharValue(s[3], s[4]);
    ParseOfSplit(a, b);
  }

  /** `formatTime` of hours and minutes below sixty pads each part. */
  lemma FormatOfParts(m: int, hh: nat, mins: nat)
    requires mins < 60 && m == hh * 60 + mins
    ensures FormatTime(m) == PadStart2(NatToString(hh)) + ":" + PadStart2(NatToString(mins))
  {
    DivModUnique(m, hh, mins);
    FormatNonNegative(m);
  }

  /** A canonical "HH:MM" string is reproduced by `formatTime` after `parseTime`. */
  lemma ParseFormatRoundTrip(s: string)
    requires IsCanonicalClock(s)
    ensures IsClockString(s) && FormatTime(ParseTime(s)) == s
  {
    ParseCanonical(s);
    var hh := DigitValue(s[0]) * 10 + DigitValue(s[1]);
    var mins := DigitValue(s[3]) * 10 + DigitValue(s[4]);
    var a, b := [s[0], s[1]], [s[3], s[4]];
    assert s == a + ":" + b;
    PaddedDigits(s[0], s[1]);
    PaddedDigits(s[3], s[4]);
    assert PadStart2(NatToString(hh)) == a && PadStart2(NatToString(mins)) == b;
    FormatOfParts(ParseTime(s), hh, mins);
  }
}

=== FILE: timetable.dfy ===
/** The timetable payload (services with ordered stops) and the two derived
    facts every other part of the tracker reads from it: the effective time of
    a stop (`getStopTime`) and the station axis of the diagram
    (`extractStations`). */
module Timetable {

  import opened Wrappers
  import opened TimeText

  /** Only "northbound" is tested for; any other direction behaves southbound. */
  datatype Direction = Northbound | Southbound

  /** A time field that is missing or the empty string is `None` here. The
      script only tests arrival and departure for truthiness, so for them the
      two are the same. The pass time is read as the last `||` operand, so an
      empty one would reach `parseTime` and give NaN; `ValidStop` excludes
      that case by requiring some time to be present. */
  datatype Stop = Stop(
    station: string,
    arrival: Option<string>,
    departure: Option<string>,
    time: Option<string>,
    stopsAt: bool)

  datatype Service = Service(trainNumber: string, direction: Direction, stops: seq<Stop>)

  predicate ValidField(f: Option<string>) {
    f.Some? ==> IsClockString(f.value)
  }

  predicate HasTime(s: Stop) {
    s.departure.Some? || s.arrival.Some? || s.time.Some?
  }

  /** A stop `getStopTime` can read: some time field is present (otherwise
      `parseTime(undefined)` throws) and every present field parses. */
  predicate ValidStop(s: Stop) {
    ValidField(s.arrival) && ValidField(s.departure) && ValidField(s.time) && HasTime(s)
  }

  predicate ValidStops(stops: seq<Stop>) {
    forall k :: 0 <= k < |stops| ==> ValidStop(stops[k])
  }

  /** `stops[0]` must exist for the start time to be read. */
  predicate ValidService(svc: Service) {
    |svc.stops| > 0 && ValidStops(svc.stops)
  }

  predicate ValidTimetable(trains: seq<Service>) {
    forall k :: 0 <= k < |trains| ==> ValidService(trains[k])
  }

  /** `getStopTime`: departure if present, else arrival, else the pass time. */
  function StopTime(s: Stop): (t: nat)
    requires ValidStop(s)
    ensures s.departure.Some? ==> t == ParseTime(s.departure.value)
    ensures s.departure.None? && s.arrival.Some? ==> t == ParseTime(s.arrival.value)
    ensures s.departure.None? && s.arrival.None? ==> t == ParseTime(s.time.value)
  {
    var text := if s.departure.Some? then s.departure.value
                else if s.arrival.Some? then s.arrival.value
                else s.time.value;
    ParseTime(text)
  }

  /** The time a train leaves a stop, as the segment scan reads it: the
      departure field when present, otherwise `getStopTime`. */
  function DepartTime(s: Stop): nat
    requires ValidStop(s)
  {
    if s.departure.Some? then ParseTime(s.departure.value) else StopTime(s)
  }

  /** The time a train reaches a stop: the arrival field when present,
      otherwise `getStopTime`. */
  function ArriveTime(s: Stop): nat
    requires ValidStop(s)
  {
    if s.arrival.Some? then ParseTime(s.arrival.value) else StopTime(s)
  }

  /** The scan's departure reading never differs from `getStopTime`, because
      `getStopTime` already prefers the departure field. */
  lemma DepartTimeIsStopTime(s: Stop)
    requires ValidStop(s)
    ensures DepartTime(s) == StopTime(s)
  {
  }

  /** The arrival reading is the arrival field when there is one, and differs
      from `getStopTime` only at a stop carrying both an arrival and a
      departure, i.e. a dwell. */
  lemma ArriveTimeDiffersOnlyAtDwell(s: Stop)
    requires ValidStop(s)
    ensures s.arrival.Some? ==> ArriveTime(s) == ParseTime(s.arrival.value)
    ensures ArriveTime(s) != StopTime(s) ==> s.arrival.Some? && s.departure.Some?
  {
  }

  function StartTime(svc: Service): nat
    requires ValidService(svc)
  {
    StopTime(svc.stops[0])
  }

  function EndTime(svc: Service): nat
    requires ValidService(svc)
  {
    StopTime(svc.stops[|svc.stops| - 1])
  }

  /** The station names of a service in the diagram's orientation: stop order
      for a southbound service, reversed for a northbound one. */
  function RouteOrder(svc: Service): (names: seq<string>)
    ensures |names| == |svc.stops|
    ensures svc.direction == Southbound ==>
              forall k :: 0 <= k < |names| ==> names[k] == svc.stops[k].station
    ensures svc.direction == Northbound ==>
              forall k :: 0 <= k < |names| ==> names[k] == svc.stops[|names| - 1 - k].station
  {
    var names := seq(|svc.stops|, k requires 0 <= k < |svc.stops| => svc.stops[k].station);
    if svc.direction == Northbound then Reverse(names) else names
  }

  function Reverse<T>(s: seq<T>): (r: seq<T>)
    ensures |r| == |s|
    ensures forall k :: 0 <= k < |s| ==> r[k] == s[|s| - 1 - k]
  {
    if |s| == 0 then [] else Reverse(s[1..]) + [s[0]]
  }

  /** `k` is the service `extractStations` settles on: none has more stops, and
      every earlier one has strictly fewer (the first of the longest wins). */
  predicate IsFirstLongest(trains: seq<Service>, k: nat) {
    && k < |trains|
    && (forall j :: 0 <= j < |trains| ==> |trains[j].stops| <= |trains[k].stops|)
    && (forall j :: 0 <= j < k ==> |trains[j].stops| < |trains[k].stops|)
  }

  /** At most one service is the first of the longest. */
  lemma FirstLongestUnique(trains: seq<Service>, k1: nat, k2: nat)
    requires IsFirstLongest(trains, k1) && IsFirstLongest(trains, k2)
    ensures k1 == k2
  {
    assert |trains[k1].stops| == |trains[k2].stops|;
  }

  /** `extractStations`: the station names of the first service with the most
      stops, reversed when that service is northbound. An empty timetable makes
      the script read `trains[0].stops` of `undefined`, so it is excluded. */
  method ExtractStations(trains: seq<Service>) returns (stations: seq<string>)
    requires |trains| > 0
    ensures exists k: nat :: IsFirstLongest(trains, k) && stations == RouteOrder(trains[k])
  {
    var longest := 0;
    var maxStops := |trains[0].stops|;
    var i := 0;
    while i < |trains|
      invariant 0 <= i <= |trains|
      invariant longest < |trains| && (longest == 0 || longest < i)
      invariant maxStops == |trains[longest].stops|
      invariant forall j :: 0 <= j < i ==> |trains[j].stops| <= maxStops
      invariant forall j :: 0 <= j < longest ==> |trains[j].stops| < maxStops
    {
      if |trains[i].stops| > maxStops {
        longest := i;
        maxStops := |trains[i].stops|;
      }
      i := i + 1;
    }
    assert IsFirstLongest(trains, longest);
    stations := RouteOrder(trains[longest]);
  }
}

=== FILE: wrappers.dfy ===
/** The optional value used wherever the tracker script yields `null` or
    `undefined` (a missing time field, no next working, no status line). */
module Wrappers {

  datatype Option<+T> = None | Some(value: T)
}
